=== FILE: README.md ===
# Digital waiting queue: a Dafny model of its core

The system hands out numbered tokens for services at a branch, keeps them
ranked, and calls them to a counter. Its core is a set of Next.js route
handlers and helpers in lib/database.ts that run SQL against one `tokens`
table. This project models that table as an immutable `seq<Token>`. Each
writing handler is a pure function from a request and a table to an HTTP
answer and the table it leaves behind (`Outcome`). Each reading handler
returns only its rows, so it cannot write.

SQL is modelled by its meaning:
- `WHERE` is `Seqs.Filter`, `ORDER BY` is `Seqs.SortBy`, `ORDER BY … LIMIT n` is `Seqs.TopK`, and `COUNT(*)` is `Seqs.Count`.
- SQL NULL is `Option.None`. `ASC` sorts NULL last and `DESC` sorts it first.
- Equal `created_at` values are ordered by table position (`Store.Precedes`). The database leaves their order open. `Store.Latest` and `Store.Earliest` depend on this choice, and so do the members built on them: `Booking.NextOrdinal` (and through it the number `Booking.Book` issues), `Booking.CreateToken`, `Transitions.NextToCall`, `Transitions.Track` and `Recalc.Rank`.
- `UPDATE … WHERE id = x` changes every row with that id (`Store.UpdateWhereId`). Where a result needs ids to be unique, the lemma assumes `Store.UniqueIds`.

JavaScript is modelled where it decides behaviour:
- Truthiness: id `0` and text `""` count as missing.
- `Number.parseInt` follows section 19.2.5 of ECMA-262. NaN is `None` and prints as `NaN`. Numbers are exact integers (see "Left out").
- `String.prototype.replace` with a string pattern removes only the first occurrence.
- `slice(1)`, `padStart` and `toUpperCase` are modelled too; `toUpperCase` maps only ASCII letters.

The modules are:
- `Wrappers`: option and response types.
- `Seqs`: the relational operators.
- `Store`: rows, statuses, ordering, the `UPDATE`.
- `Numbering`: the string work behind token numbers.
- `Booking`: `POST /api/tokens` and `createToken`.
- `Recalc`: `update-positions`.
- `Transitions`: `call-next`, `PATCH /api/admin/tokens/[id]`, tracking.
- `Views`: the admin list, the display boards, recent tokens, stats, `getActiveTokens`.
- `Catalog`: `getServices`, `getBranches`.
- `QueuePage`: the admin queue page's buttons, filter and new-token banner.

Points where the code's behaviour is easy to misread, as the model has them:
- The booking prefix is always the first two characters of the service name, upper-cased. The services page has a "Token Prefix" field, but the booking route never reads a prefix column.
- Booking does not check that the service is active or belongs to the branch. Only a missing service gives 404.
- The recalculation writes only `estimated_wait_time`. It never writes `position_in_queue`. A missing service, or a duration of 0, falls back to 15 minutes.
- The board's `position_in_queue` ordering therefore reads whatever that column holds. In the model it is NULL for every booked row.
- `createToken` numbers per branch and day, across services, with the fixed prefix `A`.

## Model

| member | source | states |
|---|---|---|
| Store.StatusNameRoundTrip | app/api/admin/tokens/route.ts:46 | a status read back from its stored text is the same status, so comparing texts compares statuses |
| Store.Latest | app/api/tokens/route.ts:24-31 | the newest row meeting the condition: it meets it, every other such row comes before it, and there is none only when no row meets it |
| Store.Earliest | app/api/admin/tokens/call-next/route.ts:8-13 | the oldest row meeting the condition, with every other such row after it; none only when no row meets it |
| Store.NewestRowIsLatest | app/api/tokens/route.ts:29-30 | a row created after all others is the newest row of every condition it meets |
| Store.UpdateOneRow | app/api/admin/tokens/call-next/route.ts:20-25 | with unique ids, an `UPDATE … WHERE id` of a row's id rewrites that row alone, in place |
| Numbering.ServicePrefix | app/api/tokens/route.ts:34 | the prefix is the name's first two characters, or fewer for a shorter name, each upper-cased |
| Numbering.PadStart | app/api/tokens/route.ts:42 | padding never shortens: the result is as long as the width, or as the text when that is longer |
| Numbering.PadStartKeepsText | app/api/tokens/route.ts:42 | the padded result ends with the text and has only fill characters in front of it |
| Numbering.RemovesFirstOccurrence | app/api/tokens/route.ts:38 | `replace` leaves a text without the pattern unchanged, and otherwise cuts out exactly the first occurrence |
| Numbering.IndexOfIsFirst | app/api/tokens/route.ts:38 | `replace` looks for the first occurrence: none comes before the one found, and none exists when nothing is found |
| Numbering.TrimStartSkipsSpace | app/api/tokens/route.ts:38 | `parseInt` first drops the leading white space and only that: what remains is a suffix that does not start with a space |
| Numbering.DigitSpanIsLongest | app/api/tokens/route.ts:38 | `parseInt` reads the longest run of digits: all of the run are digits and the character after it is not |
| Numbering.StripPrefix | app/api/tokens/route.ts:38 | removing the prefix from prefix + rest gives back rest |
| Numbering.ParseDigits | app/api/tokens/route.ts:38 | `parseInt` of a plain decimal numeral is its value |
| Numbering.ParseIntBlank | app/api/tokens/route.ts:38 | `parseInt` of an empty or all-white-space text is NaN |
| Numbering.ParseIntSign | app/api/tokens/route.ts:38 | one `-` in front negates what the text parses to, one `+` changes nothing, and NaN stays NaN |
| Numbering.NatToStringIsNumeral | app/api/tokens/route.ts:42 | `toString` of a non-negative integer writes only decimal digits, and they denote that integer |
| Numbering.FormatOrdinalIsWide | app/api/tokens/route.ts:42 | a formatted ordinal, `NaN` included, has at least three characters |
| Numbering.ParseFormatted | app/api/tokens/route.ts:38-42 | parsing a zero-padded ordinal gives the ordinal back |
| Numbering.FormatInjective | app/api/tokens/route.ts:42 | distinct ordinals are written differently |
| Numbering.FormatNeverTruncates | app/api/tokens/route.ts:42 | an ordinal of more than three digits is written in full; shorter ones are padded to three |
| Numbering.ParseNaN | app/api/tokens/route.ts:38-42 | a `NaN` ordinal, once written, does not parse either |
| Numbering.DropFirst | lib/database.ts:58 | `slice(1)` drops the first character of a non-empty text and leaves `""` empty |
| Booking.Book | app/api/tokens/route.ts:9-68 | a missing field gives 400 and an unknown service 404, with the table unchanged; otherwise exactly one waiting row is appended, numbered after the scope's newest row, with an estimate of one duration per queued row plus one |
| Booking.NextOrdinalCases | app/api/tokens/route.ts:36-40 | the next ordinal is 1 in an empty scope, and NaN only after a scope row whose number does not parse once the prefix is removed |
| Booking.FirstBookingIs001 | app/api/tokens/route.ts:36-42 | with no earlier row of the same service, branch and day, the number is the prefix followed by `001` |
| Booking.NextNumberFollowsLatest | app/api/tokens/route.ts:37-42 | after a newest row whose number strips and parses to k, the new number is the prefix and k + 1, which strips and parses to k + 1, above the newest row's |
| Booking.UnparsableNumberRepeats | app/api/tokens/route.ts:37-42 | after a newest row whose number does not parse, the new number is the prefix followed by `NaN`, which does not parse either |
| Booking.LetterLedNumberIsNaN | app/api/tokens/route.ts:38 | a number left starting with a letter after the strip, such as one written by `createToken`, parses to NaN |
| Booking.NumberedNext | app/api/tokens/route.ts:36-40 | a scope numbered up to n gets the ordinal n + 1 next |
| Booking.NumberedAfterAppend | app/api/tokens/route.ts:24-42 | appending the newest row of a scope, numbered m, leaves the scope numbered up to m |
| Booking.BookStep | app/api/tokens/route.ts:24-68 | one booking in a scope numbered up to n succeeds, is numbered n + 1, and leaves the scope numbered up to n + 1 |
| Booking.BookOnce | app/api/tokens/route.ts:24-68 | the same single step as a method: it returns the token and table `Book` gives, one appended token numbered n + 1 |
| Booking.BookAll | app/api/tokens/route.ts:24-68 | bookings made one after another extend the table by exactly the tokens they issue, one per booking when the request is complete and its service exists |
| Booking.BookAllNumbers | app/api/tokens/route.ts:24-42 | bookings in turn at increasing times, in a scope numbered up to n, are numbered n + 1, n + 2, … in order |
| Booking.BookInTurn | app/api/tokens/route.ts:24-68 | the loop of bookings in turn returns the tokens and table `BookAll` gives: one row each, appended, numbered n + 1, n + 2, … |
| Booking.ConsecutiveNumbersDistinct | app/api/tokens/route.ts:42 | numbers issued in turn are pairwise different |
| Booking.PrefixedDistinct | app/api/tokens/route.ts:42 | the same prefix before two different ordinals gives two different numbers |
| Booking.EmptyScopeNumberedZero | app/api/tokens/route.ts:36 | an empty scope is numbered up to 0, so bookings in it start at 1 |
| Booking.InitialEstimateGrowsWithQueue | app/api/tokens/route.ts:45-56 | each queued row adds one duration to the booking estimate, which is never below one duration |
| Booking.TextCountInflatesEstimate | app/api/tokens/route.ts:56 | with the count read as text, the estimate is (10·count + 1) durations, above the intended one whenever count and duration are positive |
| Booking.TextCountExample | app/api/tokens/route.ts:56 | two queued rows and a 15-minute service: 45 minutes intended, 315 as written |
| Booking.NullIfMissing | lib/database.ts:68-69 | an absent or empty text is stored as NULL and any other text as given |
| Booking.CreateToken | lib/database.ts:40-75 | appends exactly one waiting row with NULL for absent contact fields; `A001` on the branch's first row of the day, otherwise `A` and the newest number's `slice(1)`, parsed, plus one |
| Booking.CreateTokenFollowsLatest | lib/database.ts:48-60 | after `A` followed by ordinal k, any service of the branch gets `A` followed by k + 1, and `slice(1)` of it parses to k + 1 |
| Booking.SliceRoundTrip | lib/database.ts:57-59 | `slice(1)` and `parseInt` undo writing `A` before a padded ordinal |
| Booking.FirstOfDayIsA001 | lib/database.ts:48-56 | the branch's first row of the day is `A001`, which is ordinal 1 |
| Recalc.DurationOrDefault | app/api/admin/tokens/update-positions/route.ts:23-27 | the service's duration, or 15 when the service is missing or its duration is 0; never 0 |
| Recalc.Recalculated | app/api/admin/tokens/update-positions/route.ts:8-34 | each waiting row gets rank × duration; no other row changes, and no column but the estimate changes |
| Recalc.UpdatePositions | app/api/admin/tokens/update-positions/route.ts:21-34 | the per-row update loop changes only estimates, and with unique ids yields the recalculated table |
| Recalc.RankDependsOnKeys | app/api/admin/tokens/update-positions/route.ts:14 | ranks depend only on status, service and creation time |
| Recalc.RecalcIdempotent | app/api/admin/tokens/update-positions/route.ts:8-34 | recalculating twice gives the table recalculating once gives |
| Recalc.RankFollowsCreatedAt | app/api/admin/tokens/update-positions/route.ts:14 | within a service, a waiting row ranks lower exactly when it was created earlier |
| Recalc.AheadNested | app/api/admin/tokens/update-positions/route.ts:14 | the rows ahead of an earlier row are a strict subset of those ahead of a later one |
| Recalc.RankInRange | app/api/admin/tokens/update-positions/route.ts:14 | every rank lies between 1 and the number of the service's waiting rows |
| Recalc.RankOneIsFirst | app/api/admin/tokens/update-positions/route.ts:14 | rank 1 goes exactly to a waiting row with no earlier waiting row of its service |
| Recalc.RanksAreOneToN | app/api/admin/tokens/update-positions/route.ts:14 | the ranks of a service's N waiting rows are exactly 1 to N |
| Recalc.RankIgnoresOtherRows | app/api/admin/tokens/update-positions/route.ts:14 | a row of another service, or one not waiting, changes no rank |
| Transitions.NextToCall | app/api/admin/tokens/call-next/route.ts:8-13 | the waiting row created first over all services and branches; none only when nothing waits |
| Transitions.CallNext | app/api/admin/tokens/call-next/route.ts:8-25 | 404 with the table unchanged exactly when nothing waits; otherwise the picked row is in progress at counter 1, stamped now, and nothing else changes |
| Transitions.CallNextMovesOneRow | app/api/admin/tokens/call-next/route.ts:20-24 | with unique ids one row changes; the waiting count falls by one and the in-progress count rises by one |
| Transitions.CallNextPicksRankOne | app/api/admin/tokens/call-next/route.ts:8-13 | the row called is first in its service's ranking |
| Transitions.PatchStatus | app/admin/queue/page.tsx:80-91 | the `PATCH` handler this call reaches (lines 10 to 33 of app/api/admin/tokens/[id]/route.ts): no status gives 400 and no row with the id 404, each with the table unchanged; otherwise the rows with the id take the status, and the counter only when a truthy one is sent |
| Transitions.StartMatchesCallNext | app/admin/queue/page.tsx:245-254 | starting the row `call-next` would pick leaves the same table as `call-next` |
| Transitions.Track | app/api/tokens/track/route.ts:8-25 | a missing number or phone gives 400; otherwise the id of the newest row with both, or 404 exactly when there is none |
| Transitions.TrackFindsBooking | app/api/tokens/track/route.ts:15-20 | tracking the number just issued with the booking's phone finds that booking |
| Views.AdminList | app/api/admin/tokens/route.ts:28-67 | the joined rows, all of them for an absent, empty or `all` status and exactly those with that status otherwise, newest first |
| Views.AdminListUnknownStatus | app/api/admin/tokens/route.ts:29-48 | with a text status column, a status text naming no status lists nothing |
| Views.AdminListKeepsRowsWithoutCounter | app/api/admin/tokens/route.ts:44-45 | a joined row with no counter is listed, under `all` and under its status |
| Views.AdminListAfterBooking | app/api/admin/tokens/route.ts:49-67 | a booking adds exactly its own row to the full list |
| Views.WaitingList | app/api/display/waiting-queue/route.ts:20-24 | all joined waiting rows of the branch, or of every branch, in board order |
| Views.WaitingQueue | app/api/display/waiting-queue/route.ts:11-41 | at most 20 waiting rows of the board, in board order; no waiting row left out comes before one shown, and all are shown when fewer than 20 are |
| Views.WaitingQueueIsPrefix | app/api/display/waiting-queue/route.ts:24-25 | the board is the first 20 rows of the full waiting list |
| Views.NowServing | app/api/display/now-serving/route.ts:11-35 | exactly the joined in-progress rows of the branch, or every branch, latest update first, with no limit |
| Views.CalledRowIsServed | app/api/display/now-serving/route.ts:20-22 | a row `call-next` starts appears on its branch's now-serving board |
| Views.RecentTokens | app/api/admin/recent-tokens/route.ts:7-19 | at most 10 joined rows, newest first, each taken from the table no more often than it occurs there; none older than a joined row left out, and all joined rows when there are fewer than 10 |
| Views.NewestFirst | app/api/admin/recent-tokens/route.ts:15-17 | every joined row, each as often as it occurs, newest first |
| Views.RecentTokensIsPrefix | app/api/admin/recent-tokens/route.ts:17-18 | the recent tokens are the first 10 rows of the full newest-first list |
| Views.ActiveTokens | lib/database.ts:28-38 | exactly the branch's joined waiting, called and serving rows, by priority then age |
| Views.ActiveTokensRanked | lib/database.ts:36 | no row is listed after one of lower priority; rows of equal priority are listed oldest first |
| Views.TodayStats | app/api/admin/stats/route.ts:10-18 | counts of today's rows, of today's waiting or in-progress rows, and of today's completed rows; active plus completed never exceeds total |
| Views.AverageWaitIsRoundedMean | app/api/admin/stats/route.ts:32 | 0 when no completed row of today has an estimate, otherwise the mean rounded to the nearest minute |
| Views.StatsAfterBooking | app/api/admin/stats/route.ts:12-17 | a booking adds one to today's total and active counts and leaves completed as it was |
| Views.StatsAfterCallNext | app/api/admin/stats/route.ts:12-14 | with unique ids, `call-next` changes none of today's counts |
| Catalog.GetServices | lib/database.ts:20-26 | exactly the branch's active services, ordered by name |
| Catalog.GetServicesIgnoresOthers | lib/database.ts:22-23 | a service of another branch, or an inactive one, leaves a branch's list unchanged |
| Catalog.GetBranches | lib/database.ts:10-18 | a permutation of the join, ordered by name: each active branch row whose organization exists, as often as it occurs, with that organization's name, and nothing else |
| Catalog.JoinListed | lib/database.ts:12-15 | before the sort, the join holds each listed branch row as often as the table does, and nothing else |
| Catalog.JoinCounts | lib/database.ts:12-14 | joining rows with their organizations gives one listing per row, so each listing occurs as often as its row |
| Catalog.GetBranchesIgnoresUnlisted | lib/database.ts:13-15 | an inactive branch, or one without an organization, leaves the listing unchanged |
| QueuePage.Offered | app/admin/queue/page.tsx:245-277 | Start only while waiting, Complete only in progress, Cancel only while waiting or in progress |
| QueuePage.OfferedAreSteps | app/admin/queue/page.tsx:245-277 | the buttons offered are exactly the lifecycle's steps, in both directions |
| QueuePage.FinishedIsTerminal | app/admin/queue/page.tsx:245-277 | completed and cancelled tokens offer nothing and have no next step |
| QueuePage.RunsAreShort | app/admin/queue/page.tsx:245-277 | every button moves a token forward, so at most two buttons can be pressed in turn on one token |
| QueuePage.Press | app/admin/queue/page.tsx:80-92 | a button sets its status and the update time on the rows with the id, Start also sets counter 1 and the others keep the counter; every other row is unchanged; an unknown id gives 404 with the table unchanged |
| QueuePage.PressTakesAStep | app/admin/queue/page.tsx:245-277 | a button the row shows succeeds and moves the row one lifecycle step |
| QueuePage.PageFilter | app/admin/queue/page.tsx:137-140 | `all` keeps every row, any other selection exactly the rows with that status |
| QueuePage.PageFilterKeepsFetched | app/admin/queue/page.tsx:137-140 | for every choice of the status menu, the page filter removes nothing from the list the server sent |
| QueuePage.AlertAfterBooking | app/admin/queue/page.tsx:57 | in the intended reading, where each poll compares with the count before it: after a booking a silent poll raises the banner exactly when the previous list was non-empty; a refresh or an unchanged count never does. The mounted timer as written never raises it (see Findings) |
| QueuePage.MountedPollingNeverAlerts | app/admin/queue/page.tsx:33-57 | the timer started on mount sees a count of 0 and never raises the banner |
| QueuePage.StaleCountAlertsEveryPoll | app/admin/queue/page.tsx:34-57 | after a change of selection the new timer compares with the previous list's count: a list of 10 that never grows raises the banner on every poll, where one banner is intended |
| QueuePage.AlertCounterexample | app/admin/queue/page.tsx:57 | a list of 3 growing to 4: one banner intended, none from the mounted timer |
| QueuePage.AlertsFollowGrowth | app/admin/queue/page.tsx:57 | the intended banner rises exactly when the list grew from a non-empty previous poll |

## Left out

- Page rendering, timers and `fetch`: only the page's button rules, its filter and its banner condition are modelled. The other pages, `hooks/use-real-time-queue.ts`, and the three-second banner timeout are not modelled.
- Analytics, login, and the catalog create/update routes: floating-point averages, calendar arithmetic and credential checks are outside the core.
- The SQL driver, connections, `NOW()` and `new Date()`: the current time and today's date are parameters. The UTC date string of the handlers and `DATE(created_at)` are assumed to agree.
- Concurrency: each handler is one atomic step. The race between reading the newest number and inserting is not modelled.
- Errors thrown by the driver, which give 500, are not modelled. This includes a non-numeric id in the `PATCH` path.
- Column lists, `RETURNING` projections, and the joined service and counter names are not modelled. Handlers return whole rows or ids.
- The table's defaults are stood in for: the id is the next free id, and `created_at` and `updated_at` are the request time. The other columns an insert leaves out are NULL.
- `ORDER BY name` compares code points. Database collations are not modelled, and neither is Unicode case mapping beyond ASCII letters. Strings are sequences of code points rather than UTF-16 units.
- Ties in `ORDER BY` are broken by table position, which the database leaves unspecified. The sortedness and contents stated for the `SortBy` views (admin list, boards, recent tokens, active tokens, catalog) hold for any tie order. `Store.Latest`, `Store.Earliest` and the members built on them (`Booking.NextOrdinal` and so `Booking.Book`, `Booking.CreateToken`, `Transitions.NextToCall`, `Transitions.Track`, `Recalc.Rank`) pick among equal `created_at` values by table position. Two rows of one scope with equal `created_at` numbered `GE004` and `GE009` give the next ordinal 10 in one table order and 5 in the other.
- `stats` also counts active branches and staff. Those tables are not modelled.
- Views.AverageWaitIsRoundedMean: computes the exact rational mean rounded half up. The float division behind `AVG` and `Math.round` is not modelled.
- Recalc.UpdatePositions: states the recalculated table only when ids are unique. With duplicate ids each update rewrites every row with that id, and the contract then says only that estimates alone change.
- NULL durations are not represented at all: a service's `estimated_duration` is a natural number. Booking would compute with NULL, and `update-positions` would fall back to 15 through `|| 15`; neither is modelled.
- The order in which `update-positions` visits rows is not modelled. It does not matter once ids are unique.
- Views.AdminListUnknownStatus: assumes the status column holds text, so an unknown status matches no row. The table's schema is not part of this model; with an enumerated column type the query fails and the handler answers 500, which is not modelled.
- Transitions.PatchStatus: the status is taken from the enumeration of statuses. The table's schema is not part of this model, so a status text outside the enumeration is either stored or rejected with 500; neither case is modelled.
- JavaScript numbers are modelled as exact, unbounded integers. Above 2^53 `parseInt` rounds to a double, and from 1e21 on `toString` writes exponent form (`1e+21`). Neither is modelled; token ordinals stay far below both.
- Catalog.GetServices: takes the services as a sequence of rows. The lookup `map` that the other modules use for the same table is not derived from it.

## Findings

| source | as written | input that shows it | evidently intended | confidence | as-written member | corrected member |
|---|---|---|---|---|---|---|
| app/api/tokens/route.ts:56 | `queueCount[0].count + 1` with `COUNT(*)` returned as text (the stats route wraps the same kind of count in `Number`): `+` appends the digit 1, and `*` reads "21" back as 21 | two waiting rows of the same service and branch, duration 15: estimate 315 | (count + 1) × duration = 45 | medium, not executed: depends on the driver returning `COUNT(*)` as text | Booking.TextCountInflatesEstimate | Booking.InitialEstimateGrowsWithQueue |
| app/admin/queue/page.tsx:57 | the polling timer started on mount keeps the `fetchTokens` closure of the first render, in which `lastTokenCount` is 0, so `lastTokenCount > 0` never holds on a silent poll | a list of 3 rows that grows to 4 between two polls: no banner | compare each poll with the count of the poll before it | medium, not executed: follows from how React captures state in closures | QueuePage.MountedPollingNeverAlerts | QueuePage.AlertsFollowGrowth |
| app/admin/queue/page.tsx:34-57 | when the status selection changes, the new timer keeps the closure of the render that started it, in which `lastTokenCount` is the previous selection's count, so every silent poll compares with that stale count | a selection whose list holds 10 rows after one whose list held 2: a banner on every poll although the list never grows | compare each poll with the count of the poll before it | medium, not executed: follows from how React captures state in closures | QueuePage.StaleCountAlertsEveryPoll | QueuePage.AlertsFollowGrowth |

=== FILE: booking.dfy ===
/** Issuing tokens: `POST` in app/api/tokens/route.ts and the older
    `createToken` in lib/database.ts. Both number a token after the newest row
    of its scope and append exactly one `waiting` row. */
module Booking {
  import opened Wrappers
  import opened Seqs
  import opened Store
  import opened Numbering

  /** The JSON body of a booking request. */
  datatype BookingRequest = BookingRequest(
    branchId: Option<nat>,
    serviceId: Option<nat>,
    customerName: Option<string>,
    customerPhone: Option<string>)

  /** JavaScript truthiness of an id: absent and `0` are both missing. */
  predicate PresentId(x: Option<nat>) {
    x.Some? && x.value != 0
  }

  /** JavaScript truthiness of a text field: absent and `""` are both missing. */
  predicate PresentText(x: Option<string>) {
    x.Some? && x.value != ""
  }

  predicate Complete(req: BookingRequest) {
    PresentId(req.branchId) && PresentId(req.serviceId) && PresentText(req.customerName) && PresentText(req.customerPhone)
  }

  /** The rows a booking is numbered after: same service, branch and day. */
  function Scope(serviceId: nat, branchId: nat, day: nat): Token -> bool {
    (t: Token) => t.serviceId == serviceId && t.branchId == branchId && t.day == day
  }

  /** The rows counted for the first estimate: same service and branch, on
      any day, waiting or in progress. */
  function Queued(serviceId: nat, branchId: nat): Token -> bool {
    (t: Token) => t.serviceId == serviceId && t.branchId == branchId && (t.status == Waiting || t.status == InProgress)
  }

  /** The ordinal after the newest row in scope: 1 when the scope is empty,
      otherwise that row's number with the prefix removed, parsed, plus one.
      NaN stays NaN. */
  function NextOrdinal(store: seq<Token>, prefix: string, serviceId: nat, branchId: nat, day: nat): Option<int> {
    match Latest(store, Scope(serviceId, branchId, day))
    case None => Some(1)
    case Some(i) => Succ(ParseInt(RemoveFirst(store[i].tokenNumber, prefix)))
  }

  /** The ordinal is 1 in an empty scope, and NaN only after a row of the
      scope whose number does not parse once the prefix is removed. */
  lemma NextOrdinalCases(store: seq<Token>, prefix: string, serviceId: nat, branchId: nat, day: nat)
    ensures var r := NextOrdinal(store, prefix, serviceId, branchId, day);
      && ((forall j :: 0 <= j < |store| ==> !Scope(serviceId, branchId, day)(store[j])) ==> r == Some(1))
      && (r.None? ==> exists j :: 0 <= j < |store| && Scope(serviceId, branchId, day)(store[j])
                                  && ParseInt(RemoveFirst(store[j].tokenNumber, prefix)).None?)
  {
  }

  /** `n + 1` on a JavaScript number: NaN plus one is NaN. */
  function Succ(n: Option<int>): Option<int> {
    match n
    case None => None
    case Some(v) => Some(v + 1)
  }

  /** The booking-time estimate with the count read as a number: one service
      duration for every active row of the service and branch, and one more
      for the new token. The route adds 1 to the raw count; see
      `EstimateWithTextCount` for what that does when the count is text. */
  function InitialEstimate(queued: nat, duration: nat): nat {
    (queued + 1) * duration
  }

  /** `POST /api/tokens`. Missing fields give 400 and an unknown service 404,
      and neither touches the table. The service is not checked to be active
      or to belong to the branch. */
  function Book(req: BookingRequest, store: seq<Token>, services: map<nat, Service>, today: nat, now: nat): (o: Outcome<Token>)
    ensures !Complete(req) ==> o == Outcome(Err(BadRequest), store)
    ensures Complete(req) && req.serviceId.value !in services ==> o == Outcome(Err(NotFound), store)
    ensures o.response.Ok? <==> Complete(req) && req.serviceId.value in services
    ensures o.response.Ok? ==> o.store == store + [o.response.value]
    ensures o.response.Ok? ==>
      var t := o.response.value;
      var svc := services[req.serviceId.value];
      var prefix := ServicePrefix(svc.name);
      && t.serviceId == req.serviceId.value && t.branchId == req.branchId.value
      && t.customerName == req.customerName && t.customerPhone == req.customerPhone
      && t.status == Waiting && t.counterId.None? && t.positionInQueue.None?
      && t.createdAt == now && t.updatedAt == now && t.day == today
      && (forall i :: 0 <= i < |store| ==> store[i].id < t.id)
      && t.tokenNumber == prefix + FormatOrdinal(NextOrdinal(store, prefix, t.serviceId, t.branchId, today))
      && t.estimatedWait == Some(InitialEstimate(Count(store, Queued(t.serviceId, t.branchId)), svc.duration))
  {
    if !Complete(req) then Outcome(Err(BadRequest), store)
    else if req.serviceId.value !in services then Outcome(Err(NotFound), store)
    else
      var sid := req.serviceId.value;
      var bid := req.branchId.value;
      var svc := services[sid];
      var prefix := ServicePrefix(svc.name);
      var number := prefix + FormatOrdinal(NextOrdinal(store, prefix, sid, bid, today));
      var queued := Count(store, Queued(sid, bid));
      var t := Token(
        id := NextId(store), tokenNumber := number, serviceId := sid, branchId := bid,
        customerName := req.customerName, customerPhone := req.customerPhone, customerEmail := None,
        status := Waiting, positionInQueue := None,
        estimatedWait := Some(InitialEstimate(queued, svc.duration)),
        counterId := None, priority := None, createdAt := now, updatedAt := now, day := today);
      Outcome(Ok(t), store + [t])
  }

  /** The first booking of a scope is numbered `001` after the prefix. */
  lemma FirstBookingIs001(req: BookingRequest, store: seq<Token>, services: map<nat, Service>, today: nat, now: nat)
    requires Complete(req) && req.serviceId.value in services
    requires forall j :: 0 <= j < |store| ==> !Scope(req.serviceId.value, req.branchId.value, today)(store[j])
    ensures Book(req, store, services, today, now).response.Ok?
    ensures Book(req, store, services, today, now).response.value.tokenNumber
         == ServicePrefix(services[req.serviceId.value].name) + "001"
  {
    assert PadStart("1", 3, '0') == "001";
  }

  /** After a newest row whose number parses to `k`, the next number is the
      prefix followed by `k + 1`, and stripping and parsing it gives `k + 1`
      back: the next booking in the scope continues from it. */
  lemma NextNumberFollowsLatest(req: BookingRequest, store: seq<Token>, services: map<nat, Service>, today: nat, now: nat, k: nat)
    requires Complete(req) && req.serviceId.value in services
    requires var newest := Latest(store, Scope(req.serviceId.value, req.branchId.value, today));
      && newest.Some?
      && ParseInt(RemoveFirst(store[newest.value].tokenNumber, ServicePrefix(services[req.serviceId.value].name))) == Some(k)
    ensures Book(req, store, services, today, now).response.Ok?
    ensures var prefix := ServicePrefix(services[req.serviceId.value].name);
      var number := Book(req, store, services, today, now).response.value.tokenNumber;
      && number == prefix + FormatOrdinal(Some(k + 1))
      && ParseInt(RemoveFirst(number, prefix)) == Some(k + 1)
      && ParseInt(RemoveFirst(number, prefix)).value
         > ParseInt(RemoveFirst(store[Latest(store, Scope(req.serviceId.value, req.branchId.value, today)).value].tokenNumber, prefix)).value
  {
    var sid, bid := req.serviceId.value, req.branchId.value;
    var prefix := ServicePrefix(services[sid].name);
    NextOrdinalAfter(store, prefix, sid, bid, today, k);
    StripPrefix(prefix, FormatOrdinal(Some(k + 1)));
    ParseFormatted(k + 1);
  }

  lemma NextOrdinalAfter(store: seq<Token>, prefix: string, serviceId: nat, branchId: nat, day: nat, k: int)
    requires var newest := Latest(store, Scope(serviceId, branchId, day));
      newest.Some? && ParseInt(RemoveFirst(store[newest.value].tokenNumber, prefix)) == Some(k)
    ensures NextOrdinal(store, prefix, serviceId, branchId, day) == Some(k + 1)
  {
    var i := Latest(store, Scope(serviceId, branchId, day)).value;
    var parsed := ParseInt(RemoveFirst(store[i].tokenNumber, prefix));
    assert parsed == Some(k);
    assert NextOrdinal(store, prefix, serviceId, branchId, day) == Succ(parsed);
  }

  /** A number that does not parse poisons its scope: the next booking is
      numbered `NaN` after the prefix, which does not parse either. */
  lemma UnparsableNumberRepeats(req: BookingRequest, store: seq<Token>, services: map<nat, Service>, today: nat, now: nat)
    requires Complete(req) && req.serviceId.value in services
    requires var newest := Latest(store, Scope(req.serviceId.value, req.branchId.value, today));
      && newest.Some?
      && ParseInt(RemoveFirst(store[newest.value].tokenNumber, ServicePrefix(services[req.serviceId.value].name))).None?
    ensures Book(req, store, services, today, now).response.Ok?
    ensures var prefix := ServicePrefix(services[req.serviceId.value].name);
      var number := Book(req, store, services, today, now).response.value.tokenNumber;
      && number == prefix + "NaN"
      && ParseInt(RemoveFirst(number, prefix)).None?
  {
    var prefix := ServicePrefix(services[req.serviceId.value].name);
    StripPrefix(prefix, "NaN");
    ParseNaN();
  }

  /** A number that starts with a letter does not parse: an `A001` written by
      `createToken` in a booking route's scope yields NaN. */
  lemma LetterLedNumberIsNaN(s: string)
    requires s != [] && ('A' <= s[0] <= 'Z' || 'a' <= s[0] <= 'z')
    ensures ParseInt(s).None?
  {
    assert !IsJsSpace(s[0]);
    assert TrimStart(s) == s;
    assert !IsRadixDigit(s[0], 10);
  }

  /** The scope's numbering has reached `n`: empty (`n` is 0) or its newest
      number parses to `n`. */
  predicate NumberedUpTo(store: seq<Token>, prefix: string, serviceId: nat, branchId: nat, day: nat, n: nat) {
    var newest := Latest(store, Scope(serviceId, branchId, day));
    (newest.None? && n == 0) || (newest.Some? && ParseInt(RemoveFirst(store[newest.value].tokenNumber, prefix)) == Some(n))
  }

  lemma NumberedNext(store: seq<Token>, prefix: string, serviceId: nat, branchId: nat, day: nat, n: nat)
    requires NumberedUpTo(store, prefix, serviceId, branchId, day, n)
    ensures NextOrdinal(store, prefix, serviceId, branchId, day) == Some(n + 1)
  {
    if Latest(store, Scope(serviceId, branchId, day)).Some? {
      NextOrdinalAfter(store, prefix, serviceId, branchId, day, n);
    }
  }

  /** A row appended after every other row, in scope and numbered `m` after
      the prefix, leaves the scope numbered up to `m`. */
  lemma NumberedAfterAppend(store: seq<Token>, t: Token, prefix: string, serviceId: nat, branchId: nat, day: nat, m: nat)
    requires Scope(serviceId, branchId, day)(t)
    requires forall j :: 0 <= j < |store| ==> store[j].createdAt < t.createdAt
    requires t.tokenNumber == prefix + FormatOrdinal(Some(m))
    ensures NumberedUpTo(store + [t], prefix, serviceId, branchId, day, m)
  {
    var s := store + [t];
    assert s[|store|] == t;
    NewestRowIsLatest(s, Scope(serviceId, branchId, day));
    StripPrefix(prefix, FormatOrdinal(Some(m)));
    ParseFormatted(m);
  }

  /** One booking in a scope numbered up to `n` is numbered `n + 1`, and
      leaves the scope numbered up to `n + 1`. */
  lemma BookStep(req: BookingRequest, store: seq<Token>, services: map<nat, Service>, today: nat, now: nat, n: nat,
                 prefix: string, o: Outcome<Token>)
    requires Complete(req) && req.serviceId.value in services
    requires prefix == ServicePrefix(services[req.serviceId.value].name)
    requires forall j :: 0 <= j < |store| ==> store[j].createdAt < now
    requires NumberedUpTo(store, prefix, req.serviceId.value, req.branchId.value, today, n)
    requires o == Book(req, store, services, today, now)
    ensures o.response.Ok? && o.store == store + [o.response.value]
    ensures o.response.value.tokenNumber == prefix + FormatOrdinal(Some(n + 1))
    ensures NumberedUpTo(o.store, prefix, req.serviceId.value, req.branchId.value, today, n + 1)
    ensures forall j :: 0 <= j < |o.store| ==> o.store[j].createdAt <= now
  {
    NumberedNext(store, prefix, req.serviceId.value, req.branchId.value, today, n);
    NumberedAfterAppend(store, o.response.value, prefix, req.serviceId.value, req.branchId.value, today, n + 1);
  }

  /** One booking as a method: the token and table `Book` returns. */
  method BookOnce(req: BookingRequest, store: seq<Token>, services: map<nat, Service>, today: nat, now: nat, n: nat, prefix: string)
    returns (t: Token, after: seq<Token>)
    requires Complete(req) && req.serviceId.value in services
    requires prefix == ServicePrefix(services[req.serviceId.value].name)
    requires forall j :: 0 <= j < |store| ==> store[j].createdAt < now
    requires NumberedUpTo(store, prefix, req.serviceId.value, req.branchId.value, today, n)
    ensures Book(req, store, services, today, now) == Outcome(Ok(t), after)
    ensures after == store + [t]
    ensures t.tokenNumber == prefix + FormatOrdinal(Some(n + 1))
    ensures NumberedUpTo(after, prefix, req.serviceId.value, req.branchId.value, today, n + 1)
    ensures forall j :: 0 <= j < |after| ==> after[j].createdAt <= now
  {
    var o := Book(req, store, services, today, now);
    BookStep(req, store, services, today, now, n, prefix, o);
    t, after := o.response.value, o.store;
  }

  /** The same request booked once at each of `times`, one after another,
      with no other writes in between: the tokens issued, and the table after
      the last booking. A rejected booking issues nothing. */
  function BookAll(req: BookingRequest, store: seq<Token>, services: map<nat, Service>, today: nat, times: seq<nat>)
    : (r: (seq<Token>, seq<Token>))
    ensures r.1 == store + r.0
    ensures |r.0| <= |times|
    ensures Complete(req) && req.serviceId.value in services ==> |r.0| == |times|
    decreases |times|
  {
    if times == [] then ([], store)
    else
      var o := Book(req, store, services, today, times[0]);
      var rest := BookAll(req, o.store, services, today, times[1..]);
      if o.response.Ok? then
        ConcatAssociates(store, [o.response.value], rest.0);
        ([o.response.value] + rest.0, rest.1)
      else
        rest
  }

  predicate Increasing(times: seq<nat>) {
    forall i, j :: 0 <= i < j < |times| ==> times[i] < times[j]
  }

  /** The tokens are numbered `n + 1`, `n + 2`, … after the prefix. */
  predicate NumberedFrom(issued: seq<Token>, prefix: string, n: nat) {
    forall k :: 0 <= k < |issued| ==> issued[k].tokenNumber == prefix + FormatOrdinal(Some(n + k + 1))
  }

  /** Bookings in turn, in a scope numbered up to `n`, are numbered
      `n + 1`, `n + 2`, … in order. */
  lemma {:induction false} BookAllNumbers(req: BookingRequest, store: seq<Token>, services: map<nat, Service>, today: nat,
                                          times: seq<nat>, n: nat)
    requires Complete(req) && req.serviceId.value in services
    requires Increasing(times)
    requires times != [] ==> forall j :: 0 <= j < |store| ==> store[j].createdAt < times[0]
    requires NumberedUpTo(store, ServicePrefix(services[req.serviceId.value].name), req.serviceId.value, req.branchId.value, today, n)
    ensures NumberedFrom(BookAll(req, store, services, today, times).0, ServicePrefix(services[req.serviceId.value].name), n)
    decreases |times|
  {
    if times != [] {
      var prefix := ServicePrefix(services[req.serviceId.value].name);
      var o := Book(req, store, services, today, times[0]);
      BookAllFirst(req, store, services, today, times, n, prefix, o);
      BookAllNumbers(req, o.store, services, today, times[1..], n + 1);
      IssuedPrepend(o.response.value, BookAll(req, o.store, services, today, times[1..]).0, prefix, n);
    }
  }

  /** The first booking of a run: numbered `n + 1`, it leaves the rest of the
      run what `BookAllNumbers` needs for `n + 1`. */
  lemma BookAllFirst(req: BookingRequest, store: seq<Token>, services: map<nat, Service>, today: nat,
                     times: seq<nat>, n: nat, prefix: string, o: Outcome<Token>)
    requires Complete(req) && req.serviceId.value in services
    requires prefix == ServicePrefix(services[req.serviceId.value].name)
    requires times != [] && Increasing(times)
    requires forall j :: 0 <= j < |store| ==> store[j].createdAt < times[0]
    requires NumberedUpTo(store, prefix, req.serviceId.value, req.branchId.value, today, n)
    requires o == Book(req, store, services, today, times[0])
    ensures o.response.Ok? && o.response.value.tokenNumber == prefix + FormatOrdinal(Some(n + 1))
    ensures NumberedUpTo(o.store, prefix, req.serviceId.value, req.branchId.value, today, n + 1)
    ensures Increasing(times[1..])
    ensures times[1..] != [] ==> forall j :: 0 <= j < |o.store| ==> o.store[j].createdAt < times[1..][0]
    ensures BookAll(req, store, services, today, times).0
         == [o.response.value] + BookAll(req, o.store, services, today, times[1..]).0
  {
    BookStep(req, store, services, today, times[0], n, prefix, o);
    IncreasingTail(times);
  }

  lemma IncreasingTail(times: seq<nat>)
    requires times != [] && Increasing(times)
    ensures Increasing(times[1..])
    ensures |times| > 1 ==> times[0] < times[1..][0]
  {
    var later := times[1..];
    forall i, j | 0 <= i < j < |later|
      ensures later[i] < later[j]
    {
      assert later[i] == times[i + 1] && later[j] == times[j + 1];
    }
  }

  /** A token numbered `n + 1` before tokens numbered from `n + 2` on keeps
      the numbers consecutive. */
  lemma IssuedPrepend(t: Token, rest: seq<Token>, prefix: string, n: nat)
    requires t.tokenNumber == prefix + FormatOrdinal(Some(n + 1))
    requires NumberedFrom(rest, prefix, n + 1)
    ensures NumberedFrom([t] + rest, prefix, n)
  {
    ShiftNames(t, rest, (m: nat) => prefix + FormatOrdinal(Some(m)), n);
  }

  /** The shift behind `IssuedPrepend`, for any way of naming ordinals. */
  lemma ShiftNames(t: Token, rest: seq<Token>, name: nat -> string, n: nat)
    requires t.tokenNumber == name(n + 1)
    requires forall k :: 0 <= k < |rest| ==> rest[k].tokenNumber == name(n + 1 + k + 1)
    ensures forall k :: 0 <= k < |[t] + rest| ==> ([t] + rest)[k].tokenNumber == name(n + k + 1)
  {
    var s := [t] + rest;
    forall k | 0 <= k < |s|
      ensures s[k].tokenNumber == name(n + k + 1)
    {
      if k > 0 {
        var j := k - 1;
        assert n + 1 + j + 1 == n + k + 1;
        assert s[k] == rest[j];
      }
    }
  }

  /** Two different ordinals after the same prefix are different numbers. */
  lemma PrefixedDistinct(prefix: string, a: nat, b: nat)
    requires a != b
    ensures prefix + FormatOrdinal(Some(a)) != prefix + FormatOrdinal(Some(b))
  {
    if prefix + FormatOrdinal(Some(a)) == prefix + FormatOrdinal(Some(b)) {
      assert (prefix + FormatOrdinal(Some(a)))[|prefix|..] == FormatOrdinal(Some(a));
      assert (prefix + FormatOrdinal(Some(b)))[|prefix|..] == FormatOrdinal(Some(b));
      FormatInjective(a, b);
    }
  }

  /** Numbers that follow one another, after one prefix, are all different. */
  lemma ConsecutiveNumbersDistinct(issued: seq<Token>, prefix: string, n: nat)
    requires forall k :: 0 <= k < |issued| ==> issued[k].tokenNumber == prefix + FormatOrdinal(Some(n + k + 1))
    ensures forall k, l :: 0 <= k < l < |issued| ==> issued[k].tokenNumber != issued[l].tokenNumber
  {
    forall k, l | 0 <= k < l < |issued|
      ensures issued[k].tokenNumber != issued[l].tokenNumber
    {
      PrefixedDistinct(prefix, n + k + 1, n + l + 1);
    }
  }

  /** An empty scope has numbering 0, so its bookings start from `001`. */
  lemma EmptyScopeNumberedZero(store: seq<Token>, prefix: string, serviceId: nat, branchId: nat, day: nat)
    requires forall j :: 0 <= j < |store| ==> !Scope(serviceId, branchId, day)(store[j])
    ensures NumberedUpTo(store, prefix, serviceId, branchId, day, 0)
  {
  }

  /** `BookAll` computed by a loop that calls `Book` once per time. In a
      scope numbered up to `n` the tokens are numbered `n + 1`, `n + 2`, …
      in order (all different, by `ConsecutiveNumbersDistinct`). */
  method BookInTurn(req: BookingRequest, store: seq<Token>, services: map<nat, Service>, today: nat, times: seq<nat>, n: nat)
    returns (issued: seq<Token>, after: seq<Token>)
    requires Complete(req) && req.serviceId.value in services
    requires Increasing(times)
    requires times != [] ==> forall j :: 0 <= j < |store| ==> store[j].createdAt < times[0]
    requires NumberedUpTo(store, ServicePrefix(services[req.serviceId.value].name), req.serviceId.value, req.branchId.value, today, n)
    ensures (issued, after) == BookAll(req, store, services, today, times)
    ensures |issued| == |times| && after == store + issued
    ensures forall k :: 0 <= k < |issued| ==>
      issued[k].tokenNumber == ServicePrefix(services[req.serviceId.value].name) + FormatOrdinal(Some(n + k + 1))
  {
    issued, after := [], store;
    var i := 0;
    assert times[i..] == times && issued + BookAll(req, store, services, today, times).0 == BookAll(req, store, services, today, times).0;
    while i < |times|
      invariant 0 <= i <= |times|
      invariant BookAll(req, store, services, today, times)
             == (issued + BookAll(req, after, services, today, times[i..]).0, BookAll(req, after, services, today, times[i..]).1)
    {
      var o := Book(req, after, services, today, times[i]);
      assert times[i..][0] == times[i] && times[i..][1..] == times[i + 1..];
      var rest := BookAll(req, o.store, services, today, times[i + 1..]);
      if o.response.Ok? {
        ConcatAssociates(issued, [o.response.value], rest.0);
        issued := issued + [o.response.value];
      }
      after := o.store;
      i := i + 1;
    }
    assert times[i..] == [] && issued + [] == issued;
    BookAllNumbers(req, store, services, today, times, n);
  }

  /** Each row already waiting or in progress adds one service duration to a
      new booking's estimate, and the estimate is never below one duration. */
  lemma InitialEstimateGrowsWithQueue(queued: nat, duration: nat)
    ensures InitialEstimate(queued + 1, duration) == InitialEstimate(queued, duration) + duration
    ensures InitialEstimate(queued, duration) >= duration
  {
    assert InitialEstimate(queued, duration) == queued * duration + duration;
  }

  /** `queueCount[0].count + 1` as written, when the driver returns `COUNT(*)`
      as text (as it does for the wrapped `Number(...)` counts of
      app/api/admin/stats/route.ts): `+` concatenates the digit `1` and `*`
      reads the concatenation back as a number. */
  function EstimateWithTextCount(queued: nat, duration: nat): nat {
    var text := NatToString(queued) + "1";
    ValueOf(text, 10) * duration
  }

  /** The text reading inflates the estimate tenfold: `(10·count + 1)` durations. */
  lemma TextCountInflatesEstimate(queued: nat, duration: nat)
    ensures EstimateWithTextCount(queued, duration) == (10 * queued + 1) * duration
    ensures queued > 0 && duration > 0 ==> EstimateWithTextCount(queued, duration) > InitialEstimate(queued, duration)
  {
    NatToStringIsNumeral(queued);
    AppendDigit(NatToString(queued), '1');
    TenfoldPlusOne(queued, duration);
  }

  lemma TenfoldPlusOne(queued: nat, duration: nat)
    ensures (10 * queued + 1) * duration == InitialEstimate(queued, duration) + 9 * (queued * duration)
  {
  }

  /** Two bookings ahead of a 15-minute service: 45 minutes meant, 315 written. */
  lemma TextCountExample()
    ensures InitialEstimate(2, 15) == 45
    ensures EstimateWithTextCount(2, 15) == 315
  {
    TextCountInflatesEstimate(2, 15);
  }

  /** The optional fields of `createToken`. */
  datatype CreateRequest = CreateRequest(
    serviceId: nat,
    branchId: nat,
    customerName: Option<string>,
    customerPhone: Option<string>,
    customerEmail: Option<string>)

  /** `value || null`: an absent or empty text is stored as NULL. */
  function NullIfMissing(x: Option<string>): (r: Option<string>)
    ensures r.Some? <==> PresentText(x)
    ensures r.Some? ==> r == x
  {
    if PresentText(x) then x else None
  }

  /** `createToken` numbers per branch and day, across every service. */
  function BranchDay(branchId: nat, day: nat): Token -> bool {
    (t: Token) => t.branchId == branchId && t.day == day
  }

  /** `createToken` in lib/database.ts: `A001` for the first row of the
      branch's day, otherwise `A` and the newest number without its first
      character, parsed, plus one. */
  function CreateToken(req: CreateRequest, store: seq<Token>, today: nat, now: nat): (r: (Token, seq<Token>))
    ensures r.1 == store + [r.0]
    ensures r.0.status == Waiting && r.0.serviceId == req.serviceId && r.0.branchId == req.branchId
    ensures r.0.createdAt == now && r.0.day == today && r.0.estimatedWait.None? && r.0.counterId.None?
    ensures forall i :: 0 <= i < |store| ==> store[i].id < r.0.id
    ensures r.0.customerName == NullIfMissing(req.customerName)
    ensures r.0.customerPhone == NullIfMissing(req.customerPhone)
    ensures r.0.customerEmail == NullIfMissing(req.customerEmail)
    ensures Latest(store, BranchDay(req.branchId, today)).None? ==> r.0.tokenNumber == "A001"
    ensures var newest := Latest(store, BranchDay(req.branchId, today));
      newest.Some? ==>
        r.0.tokenNumber == "A" + FormatOrdinal(Succ(ParseInt(DropFirst(store[newest.value].tokenNumber))))
  {
    var number :=
      match Latest(store, BranchDay(req.branchId, today))
      case None => "A001"
      case Some(i) =>
        "A" + FormatOrdinal(Succ(ParseInt(DropFirst(store[i].tokenNumber))));
    var t := Token(
      id := NextId(store), tokenNumber := number, serviceId := req.serviceId, branchId := req.branchId,
      customerName := NullIfMissing(req.customerName), customerPhone := NullIfMissing(req.customerPhone),
      customerEmail := NullIfMissing(req.customerEmail),
      status := Waiting, positionInQueue := None, estimatedWait := None,
      counterId := None, priority := None, createdAt := now, updatedAt := now, day := today);
    (t, store + [t])
  }

  /** `createToken` continues its branch's numbering: after `A` followed by
      the ordinal `k`, it writes `A` followed by `k + 1`, whatever the service,
      and `slice(1)` of that parses to `k + 1`. The literal `A001` is the
      same text as ordinal 1 formatted. */
  lemma CreateTokenFollowsLatest(req: CreateRequest, store: seq<Token>, today: nat, now: nat, k: nat)
    requires var newest := Latest(store, BranchDay(req.branchId, today));
      newest.Some? && store[newest.value].tokenNumber == "A" + FormatOrdinal(Some(k))
    ensures CreateToken(req, store, today, now).0.tokenNumber == "A" + FormatOrdinal(Some(k + 1))
    ensures ParseInt(DropFirst(CreateToken(req, store, today, now).0.tokenNumber)) == Some(k + 1)
  {
    CreateOrdinalAfter(store, req.branchId, today, k);
    SliceRoundTrip(k + 1);
  }

  lemma CreateOrdinalAfter(store: seq<Token>, branchId: nat, day: nat, k: nat)
    requires var newest := Latest(store, BranchDay(branchId, day));
      newest.Some? && store[newest.value].tokenNumber == "A" + FormatOrdinal(Some(k))
    ensures var newest := Latest(store, BranchDay(branchId, day));
      Succ(ParseInt(DropFirst(store[newest.value].tokenNumber))) == Some(k + 1)
  {
    SliceRoundTrip(k);
  }

  /** `slice(1)` undoes the `A` in front of a formatted ordinal. */
  lemma SliceRoundTrip(k: nat)
    ensures ParseInt(DropFirst("A" + FormatOrdinal(Some(k)))) == Some(k)
  {
    assert DropFirst("A" + FormatOrdinal(Some(k))) == FormatOrdinal(Some(k));
    ParseFormatted(k);
  }

  /** The first `createToken` row of a branch's day is `A001`, which is `A`
      followed by ordinal 1, so the branch's numbering then continues at 2. */
  lemma FirstOfDayIsA001(req: CreateRequest, store: seq<Token>, today: nat, now: nat)
    requires forall j :: 0 <= j < |store| ==> !BranchDay(req.branchId, today)(store[j])
    ensures CreateToken(req, store, today, now).0.tokenNumber == "A001"
    ensures ParseInt(DropFirst("A001")) == Some(1)
  {
    assert PadStart("1", 3, '0') == "001";
    assert DropFirst("A001") == FormatOrdinal(Some(1));
    ParseFormatted(1);
  }
}

=== FILE: catalog.dfy ===
/** `getServices` and `getBranches` in lib/database.ts: the active rows of
    the `services` table for one branch, and the active branches with their
    organization's name, each ordered by name. */
module Catalog {
  import opened Wrappers
  import opened Seqs
  import opened Store

  /** A row of `services` with its id. */
  datatype ServiceRow = ServiceRow(id: nat, service: Service)

  /** A row of `branches` with its id. */
  datatype BranchRow = BranchRow(id: nat, branch: Branch)

  /** `b.*` together with `o.name as organization_name`. */
  datatype BranchListing = BranchListing(id: nat, branch: Branch, organizationName: string)

  /** `ORDER BY name` compares code points: a proper prefix comes first.
      Database collations are not modelled. */
  predicate TextLe(a: string, b: string)
    decreases |a|
  {
    a == [] || (b != [] && (a[0] < b[0] || (a[0] == b[0] && TextLe(a[1..], b[1..]))))
  }

  lemma {:induction false} TextLeTotal(a: string, b: string)
    ensures TextLe(a, b) || TextLe(b, a)
    decreases |a|
  {
    if a != [] && b != [] && a[0] == b[0] {
      TextLeTotal(a[1..], b[1..]);
    }
  }

  lemma {:induction false} TextLeTransitive(a: string, b: string, c: string)
    requires TextLe(a, b) && TextLe(b, c)
    ensures TextLe(a, c)
    decreases |a|
  {
    if a != [] && a[0] == b[0] && b[0] == c[0] {
      TextLeTransitive(a[1..], b[1..], c[1..]);
    }
  }

  predicate ServiceNameLe(x: ServiceRow, y: ServiceRow) {
    TextLe(x.service.name, y.service.name)
  }

  predicate BranchNameLe(x: BranchListing, y: BranchListing) {
    TextLe(x.branch.name, y.branch.name)
  }

  lemma ServiceNameLeIsOrder()
    ensures TotalPreorder(ServiceNameLe)
  {
    forall x, y
      ensures ServiceNameLe(x, y) || ServiceNameLe(y, x)
    {
      TextLeTotal(x.service.name, y.service.name);
    }
    forall x, y, z | ServiceNameLe(x, y) && ServiceNameLe(y, z)
      ensures ServiceNameLe(x, z)
    {
      TextLeTransitive(x.service.name, y.service.name, z.service.name);
    }
  }

  lemma BranchNameLeIsOrder()
    ensures TotalPreorder(BranchNameLe)
  {
    forall x, y
      ensures BranchNameLe(x, y) || BranchNameLe(y, x)
    {
      TextLeTotal(x.branch.name, y.branch.name);
    }
    forall x, y, z | BranchNameLe(x, y) && BranchNameLe(y, z)
      ensures BranchNameLe(x, z)
    {
      TextLeTransitive(x.branch.name, y.branch.name, z.branch.name);
    }
  }

  /** A service the branch offers today: `branch_id = … AND is_active = true`. */
  predicate Offered(branchId: nat, row: ServiceRow) {
    row.service.branchId == branchId && row.service.active
  }

  function OfferedBy(branchId: nat): ServiceRow -> bool {
    (row: ServiceRow) => Offered(branchId, row)
  }

  /** `getServices(branchId)`: exactly the branch's active services, by name. */
  function GetServices(table: seq<ServiceRow>, branchId: nat): (r: seq<ServiceRow>)
    ensures Sorted(r, ServiceNameLe)
    ensures forall row :: multiset(r)[row] == if Offered(branchId, row) then multiset(table)[row] else 0
  {
    ServiceNameLeIsOrder();
    SortBy(Filter(table, OfferedBy(branchId)), ServiceNameLe)
  }

  /** Branches are listed independently: adding a service to another branch,
      or an inactive one, leaves a branch's list as it was. */
  lemma GetServicesIgnoresOthers(table: seq<ServiceRow>, row: ServiceRow, branchId: nat)
    requires !Offered(branchId, row)
    ensures GetServices(table + [row], branchId) == GetServices(table, branchId)
  {
    FilterAppend(table, row, OfferedBy(branchId));
    assert Filter(table + [row], OfferedBy(branchId)) == Filter(table, OfferedBy(branchId));
  }

  /** An active branch whose organization exists: the rows the inner join keeps. */
  predicate Listed(organizations: map<nat, string>, row: BranchRow) {
    row.branch.active && row.branch.organizationId in organizations
  }

  function ListedIn(organizations: map<nat, string>): BranchRow -> bool {
    (row: BranchRow) => Listed(organizations, row)
  }

  /** The join of the kept branch rows with their organization's name, row by row. */
  function JoinOrganizations(rows: seq<BranchRow>, organizations: map<nat, string>): (r: seq<BranchListing>)
    requires forall i :: 0 <= i < |rows| ==> rows[i].branch.organizationId in organizations
    ensures |r| == |rows|
    decreases |rows|
  {
    if rows == [] then []
    else [BranchListing(rows[0].id, rows[0].branch, organizations[rows[0].branch.organizationId])]
         + JoinOrganizations(rows[1..], organizations)
  }

  /** `getBranches()`: every active branch whose organization exists, with
      that organization's name, by branch name. */
  function GetBranches(branches: seq<BranchRow>, organizations: map<nat, string>): (r: seq<BranchListing>)
    ensures Sorted(r, BranchNameLe)
    ensures forall v :: multiset(r)[v] == if ListingOf(organizations, v) then multiset(branches)[BranchRow(v.id, v.branch)] else 0
    ensures forall v :: v in r <==> JoinedListing(branches, organizations, v)
  {
    BranchNameLeIsOrder();
    var r := SortBy(JoinListed(branches, organizations), BranchNameLe);
    assert forall v :: v in r <==> v in multiset(r);
    r
  }

  /** `FROM branches b JOIN organizations o … WHERE b.is_active = true`, before the sort. */
  function JoinListed(branches: seq<BranchRow>, organizations: map<nat, string>): (r: seq<BranchListing>)
    ensures forall v :: multiset(r)[v] == if ListingOf(organizations, v) then multiset(branches)[BranchRow(v.id, v.branch)] else 0
  {
    var kept := Filter(branches, ListedIn(organizations));
    KeptAreListed(branches, organizations, kept);
    forall v
      ensures multiset(JoinOrganizations(kept, organizations))[v]
           == if ListingOf(organizations, v) then multiset(branches)[BranchRow(v.id, v.branch)] else 0
    {
      JoinCounts(kept, organizations, v);
    }
    JoinOrganizations(kept, organizations)
  }

  /** `v` is the join of its own branch row with that row's organization. */
  predicate ListingOf(organizations: map<nat, string>, v: BranchListing) {
    Listed(organizations, BranchRow(v.id, v.branch)) && v.organizationName == organizations[v.branch.organizationId]
  }

  /** `v` is what the join makes of a listed row of `branches`. */
  predicate JoinedListing(branches: seq<BranchRow>, organizations: map<nat, string>, v: BranchListing) {
    BranchRow(v.id, v.branch) in branches && ListingOf(organizations, v)
  }

  /** Every row the filter keeps is active and has its organization. */
  lemma KeptAreListed(branches: seq<BranchRow>, organizations: map<nat, string>, kept: seq<BranchRow>)
    requires kept == Filter(branches, ListedIn(organizations))
    ensures forall i :: 0 <= i < |kept| ==> kept[i].branch.organizationId in organizations
    ensures forall i :: 0 <= i < |kept| ==> kept[i].branch.active
  {
    forall i | 0 <= i < |kept|
      ensures Listed(organizations, kept[i])
    {
      assert kept[i] in kept;
      assert ListedIn(organizations)(kept[i]);
    }
  }

  /** The join counts one listing per kept branch row. */
  lemma {:induction false} JoinCounts(rows: seq<BranchRow>, organizations: map<nat, string>, v: BranchListing)
    requires forall i :: 0 <= i < |rows| ==> rows[i].branch.organizationId in organizations
    requires forall i :: 0 <= i < |rows| ==> rows[i].branch.active
    ensures multiset(JoinOrganizations(rows, organizations))[v]
      == if ListingOf(organizations, v) then multiset(rows)[BranchRow(v.id, v.branch)] else 0
  {
    if rows != [] {
      JoinCounts(rows[1..], organizations, v);
      assert rows == [rows[0]] + rows[1..];
      JoinConsCount(rows[0], rows[1..], JoinOrganizations(rows[1..], organizations), organizations, v);
    }
  }

  lemma JoinConsCount(row: BranchRow, rest: seq<BranchRow>, joinedRest: seq<BranchListing>, organizations: map<nat, string>,
                      v: BranchListing)
    requires row.branch.organizationId in organizations && row.branch.active
    requires multiset(joinedRest)[v] == if ListingOf(organizations, v) then multiset(rest)[BranchRow(v.id, v.branch)] else 0
    ensures var head := BranchListing(row.id, row.branch, organizations[row.branch.organizationId]);
      multiset([head] + joinedRest)[v] == if ListingOf(organizations, v) then multiset([row] + rest)[BranchRow(v.id, v.branch)] else 0
  {
  }

  /** An inactive branch, or one whose organization is missing, changes
      nothing in the listing. */
  lemma GetBranchesIgnoresUnlisted(branches: seq<BranchRow>, row: BranchRow, organizations: map<nat, string>)
    requires !Listed(organizations, row)
    ensures GetBranches(branches + [row], organizations) == GetBranches(branches, organizations)
  {
    FilterAppend(branches, row, ListedIn(organizations));
    assert Filter(branches + [row], ListedIn(organizations)) == Filter(branches, ListedIn(organizations));
  }
}

=== FILE: numbering.dfy ===
/** The string work behind token numbers: the service prefix, decimal
    formatting with `padStart`, the prefix strip done with `replace`, and
    `Number.parseInt` as section 19.2.5 of ECMA-262 defines it. NaN is `None`. */
module Numbering {
  import opened Wrappers

  /** `toUpperCase` on one character; only ASCII letters are mapped. */
  function UpperChar(c: char): char {
    if 'a' <= c <= 'z' then (c as int - ('a' as int - 'A' as int)) as char else c
  }

  function Upper(s: string): (r: string)
    ensures |r| == |s|
    ensures forall i :: 0 <= i < |s| ==> r[i] == UpperChar(s[i])
  {
    seq(|s|, i requires 0 <= i < |s| => UpperChar(s[i]))
  }

  /** `name.substring(0, 2).toUpperCase()`: the booking route's token prefix. */
  function ServicePrefix(name: string): (p: string)
    ensures |p| == Min(2, |name|)
    ensures forall i :: 0 <= i < |p| ==> p[i] == UpperChar(name[i])
    ensures forall i :: 0 <= i < |p| ==> !('a' <= p[i] <= 'z')
  {
    Upper(name[..Min(2, |name|)])
  }

  /** The value of `c` as a digit of radix 36 or less, as `parseInt` reads it. */
  function DigitValue(c: char): Option<nat> {
    if '0' <= c <= '9' then Some(c as int - '0' as int)
    else if 'a' <= c <= 'z' then Some(c as int - 'a' as int + 10)
    else if 'A' <= c <= 'Z' then Some(c as int - 'A' as int + 10)
    else None
  }

  predicate IsRadixDigit(c: char, radix: nat) {
    DigitValue(c).Some? && DigitValue(c).value < radix
  }

  function DigitChar(d: nat): (c: char)
    requires d < 10
    ensures IsRadixDigit(c, 10) && DigitValue(c) == Some(d)
  {
    ('0' as int + d) as char
  }

  /** The number a string of radix digits denotes, most significant first.
      It is only applied to digit strings; any other character counts as 0. */
  function ValueOf(s: string, radix: nat): nat {
    if s == [] then 0
    else ValueOf(s[..|s| - 1], radix) * radix + DigitOrZero(s[|s| - 1])
  }

  function DigitOrZero(c: char): nat {
    match DigitValue(c)
    case Some(d) => d
    case None => 0
  }

  /** `Number.prototype.toString()` of a non-negative integer: its decimal digits. */
  function NatToString(n: nat): (s: string)
    ensures 1 <= |s|
  {
    if n < 10 then [DigitChar(n)] else NatToString(n / 10) + [DigitChar(n % 10)]
  }

  /** `toString` writes a numeral: decimal digits only, denoting `n`. */
  lemma {:induction false} NatToStringIsNumeral(n: nat)
    ensures var s := NatToString(n);
      && (forall i :: 0 <= i < |s| ==> IsRadixDigit(s[i], 10))
      && ValueOf(s, 10) == n
  {
    if n >= 10 {
      NatToStringIsNumeral(n / 10);
      var s := NatToString(n);
      assert s[..|s| - 1] == NatToString(n / 10);
    }
  }

  /** Writing one more digit after a numeral multiplies its value by ten and
      adds the digit. */
  lemma AppendDigit(s: string, c: char)
    requires forall i :: 0 <= i < |s| ==> IsRadixDigit(s[i], 10)
    requires IsRadixDigit(c, 10)
    ensures forall i :: 0 <= i < |s + [c]| ==> IsRadixDigit((s + [c])[i], 10)
    ensures ValueOf(s + [c], 10) == ValueOf(s, 10) * 10 + DigitValue(c).value
  {
    assert (s + [c])[..|s|] == s;
  }

  /** `Number.prototype.toString()` of an integer. */
  function IntToString(n: int): string {
    if n < 0 then "-" + NatToString(-n) else NatToString(n)
  }

  /** `s.padStart(width, fill)` with a one-character `fill`: never shortens `s`. */
  function PadStart(s: string, width: nat, fill: char): (r: string)
    ensures |r| == Max(width, |s|)
  {
    if width <= |s| then s else seq(width - |s|, _ => fill) + s
  }

  /** Padding ends with the padded text and fills only in front of it. */
  lemma PadStartKeepsText(s: string, width: nat, fill: char)
    ensures var r := PadStart(s, width, fill);
      && r[|r| - |s|..] == s
      && (forall i :: 0 <= i < |r| - |s| ==> r[i] == fill)
  {
  }

  /** `${n.toString().padStart(3, "0")}`; NaN prints as `NaN`, which is
      already three characters long. */
  function FormatOrdinal(n: Option<int>): string {
    match n
    case None => "NaN"
    case Some(v) => PadStart(IntToString(v), 3, '0')
  }

  /** Every ordinal, NaN included, is written with at least three characters. */
  lemma FormatOrdinalIsWide(n: Option<int>)
    ensures 3 <= |FormatOrdinal(n)|
  {
  }

  /** Length of the longest prefix of `s` made of radix digits. */
  function DigitSpan(s: string, radix: nat): (k: nat)
    ensures k <= |s|
  {
    if s == [] || !IsRadixDigit(s[0], radix) then 0 else 1 + DigitSpan(s[1..], radix)
  }

  /** The span is all digits and stops at the first character that is not one. */
  lemma {:induction false} DigitSpanIsLongest(s: string, radix: nat)
    ensures var k := DigitSpan(s, radix);
      && (forall i :: 0 <= i < k ==> IsRadixDigit(s[i], radix))
      && (k < |s| ==> !IsRadixDigit(s[k], radix))
  {
    if s != [] && IsRadixDigit(s[0], radix) {
      DigitSpanIsLongest(s[1..], radix);
    }
  }

  /** StrWhiteSpaceChar of ECMA-262: white space and line terminators. */
  predicate IsJsSpace(c: char) {
    || c == '\t' || c == '\n' || c == '\U{000B}' || c == '\U{000C}' || c == '\r' || c == ' '
    || c == '\U{00A0}' || c == '\U{1680}' || ('\U{2000}' <= c <= '\U{200A}')
    || c == '\U{2028}' || c == '\U{2029}' || c == '\U{202F}' || c == '\U{205F}'
    || c == '\U{3000}' || c == '\U{FEFF}'
  }

  function TrimStart(s: string): (r: string)
    ensures |r| <= |s|
  {
    if s != [] && IsJsSpace(s[0]) then TrimStart(s[1..]) else s
  }

  /** Trimming removes leading white space and nothing else. */
  lemma {:induction false} TrimStartSkipsSpace(s: string)
    ensures var r := TrimStart(s);
      && r == s[|s| - |r|..]
      && (r == [] || !IsJsSpace(r[0]))
      && (forall i :: 0 <= i < |s| - |r| ==> IsJsSpace(s[i]))
  {
    if s != [] && IsJsSpace(s[0]) {
      TrimStartSkipsSpace(s[1..]);
    }
  }

  /** `Number.parseInt(s)` with no radix: leading white space is skipped, one
      sign is read, `0x`/`0X` switches to radix 16, and the longest run of
      digits that follows is read. No digit at all gives NaN (`None`). */
  function ParseInt(s: string): Option<int> {
    var t := TrimStart(s);
    var negative := |t| > 0 && t[0] == '-';
    var u := if |t| > 0 && (t[0] == '-' || t[0] == '+') then t[1..] else t;
    var hex := |u| >= 2 && u[0] == '0' && (u[1] == 'x' || u[1] == 'X');
    var radix := if hex then 16 else 10;
    var v := if hex then u[2..] else u;
    var k := DigitSpan(v, radix);
    if k == 0 then None
    else
      var m := ValueOf(v[..k], radix);
      var value: int := if negative then 0 - (m as int) else m as int;
      Some(value)
  }

  /** Blank text, the empty text included, has no digit and parses to NaN. */
  lemma ParseIntBlank(s: string)
    requires forall i :: 0 <= i < |s| ==> IsJsSpace(s[i])
    ensures ParseInt(s).None?
  {
    TrimStartSkipsSpace(s);
  }

  /** One sign in front of a numeral: `-` negates what the numeral parses
      to, `+` changes nothing, and NaN stays NaN. */
  lemma ParseIntSign(c: char, s: string)
    requires c == '-' || c == '+'
    requires s == [] || (!IsJsSpace(s[0]) && s[0] != '-' && s[0] != '+')
    ensures ParseInt([c] + s).None? <==> ParseInt(s).None?
    ensures ParseInt(s).Some? ==>
      ParseInt([c] + s).value == if c == '-' then 0 - ParseInt(s).value else ParseInt(s).value
  {
    assert TrimStart([c] + s) == [c] + s;
    assert TrimStart(s) == s;
    assert ([c] + s)[1..] == s;
  }

  predicate OccursAt(s: string, pat: string, k: nat) {
    k + |pat| <= |s| && s[k..k + |pat|] == pat
  }

  /** A position at or after `from` where `pat` occurs in `s`: the first
      one, by `IndexOfIsFirst`. */
  function IndexOf(s: string, pat: string, from: nat): (r: Option<nat>)
    ensures r.Some? ==> from <= r.value && OccursAt(s, pat, r.value)
    decreases |s| - from
  {
    if |s| < from + |pat| then None
    else if OccursAt(s, pat, from) then Some(from)
    else IndexOf(s, pat, from + 1)
  }

  /** `IndexOf` finds the first occurrence, and finds none only when there is none. */
  lemma {:induction false} IndexOfIsFirst(s: string, pat: string, from: nat)
    ensures var r := IndexOf(s, pat, from);
      && (r.Some? ==> forall k :: from <= k < r.value ==> !OccursAt(s, pat, k))
      && (r.None? ==> forall k :: from <= k ==> !OccursAt(s, pat, k))
    decreases |s| - from
  {
    if |s| >= from + |pat| && !OccursAt(s, pat, from) {
      IndexOfIsFirst(s, pat, from + 1);
    }
  }

  /** `s.replace(pat, "")` with a string pattern: only the first occurrence goes. */
  function RemoveFirst(s: string, pat: string): (r: string)
    ensures |r| == |s| || |r| == |s| - |pat|
  {
    match IndexOf(s, pat, 0)
    case None => s
    case Some(i) => s[..i] + s[i + |pat|..]
  }

  /** `pat` occurs at `i` and at no earlier position. */
  predicate FirstOccurrence(s: string, pat: string, i: nat) {
    OccursAt(s, pat, i) && forall k: nat :: k < i ==> !OccursAt(s, pat, k)
  }

  /** `replace` deletes the first occurrence of the pattern and keeps the
      rest; with no occurrence it returns the text unchanged. */
  lemma RemovesFirstOccurrence(s: string, pat: string)
    ensures (forall k: nat :: !OccursAt(s, pat, k)) ==> RemoveFirst(s, pat) == s
    ensures forall i: nat :: FirstOccurrence(s, pat, i) ==> RemoveFirst(s, pat) == s[..i] + s[i + |pat|..]
  {
    IndexOfIsFirst(s, pat, 0);
    match IndexOf(s, pat, 0)
    case None =>
      assert RemoveFirst(s, pat) == s;
      assert forall i: nat :: !FirstOccurrence(s, pat, i);
    case Some(j) =>
      assert OccursAt(s, pat, j);
      assert RemoveFirst(s, pat) == s[..j] + s[j + |pat|..];
      forall i: nat | FirstOccurrence(s, pat, i)
        ensures i == j
      {
        assert i < j ==> !OccursAt(s, pat, i);
        assert j < i ==> !OccursAt(s, pat, j);
      }
  }

  /** `"".slice(1)` is `""`; otherwise the first character goes. */
  function DropFirst(s: string): (r: string)
    ensures s != [] ==> s == [s[0]] + r
    ensures s == [] ==> r == []
  {
    if s == [] then s else s[1..]
  }

  /** Stripping a prefix with `replace` gives back the rest: the first
      occurrence of the prefix is the one at position 0. */
  lemma StripPrefix(prefix: string, rest: string)
    ensures RemoveFirst(prefix + rest, prefix) == rest
  {
    var s := prefix + rest;
    assert s[0..|prefix|] == prefix;
    assert IndexOf(s, prefix, 0) == Some(0);
    assert s[|prefix|..] == rest;
  }

  /** Leading zeros do not change the value of a digit string. */
  lemma {:induction false} LeadingZeros(zeros: string, s: string)
    requires forall i :: 0 <= i < |zeros| ==> zeros[i] == '0'
    requires forall i :: 0 <= i < |s| ==> IsRadixDigit(s[i], 10)
    ensures forall i :: 0 <= i < |zeros + s| ==> IsRadixDigit((zeros + s)[i], 10)
    ensures ValueOf(zeros + s, 10) == ValueOf(s, 10)
  {
    var t := zeros + s;
    if s == [] {
      assert t == zeros;
      AllZeros(zeros);
    } else {
      assert t[..|t| - 1] == zeros + s[..|s| - 1];
      LeadingZeros(zeros, s[..|s| - 1]);
    }
  }

  lemma {:induction false} AllZeros(zeros: string)
    requires forall i :: 0 <= i < |zeros| ==> zeros[i] == '0'
    ensures forall i :: 0 <= i < |zeros| ==> IsRadixDigit(zeros[i], 10)
    ensures ValueOf(zeros, 10) == 0
  {
    if zeros != [] {
      AllZeros(zeros[..|zeros| - 1]);
    }
  }

  /** A digit string starting with a digit other than a sign or a `0x` prefix
      parses to its decimal value. */
  lemma ParseDigits(s: string)
    requires 1 <= |s|
    requires forall i :: 0 <= i < |s| ==> IsRadixDigit(s[i], 10)
    ensures ParseInt(s) == Some(ValueOf(s, 10))
  {
    assert IsRadixDigit(s[0], 10);
    assert !IsJsSpace(s[0]);
    assert TrimStart(s) == s;
    assert s[0] != '-' && s[0] != '+';
    if |s| >= 2 {
      assert IsRadixDigit(s[1], 10);
      assert s[1] != 'x' && s[1] != 'X';
    }
    var k := DigitSpan(s, 10);
    DigitSpanIsLongest(s, 10);
    assert k == |s|;
    assert s[..k] == s;
  }

  /** Round trip: parsing a formatted ordinal gives the ordinal back. */
  lemma ParseFormatted(n: nat)
    ensures ParseInt(FormatOrdinal(Some(n))) == Some(n)
  {
    var d := NatToString(n);
    var f := PadStart(d, 3, '0');
    NatToStringIsNumeral(n);
    PadStartKeepsText(d, 3, '0');
    var zeros := f[..|f| - |d|];
    assert f == zeros + d;
    LeadingZeros(zeros, d);
    ParseDigits(f);
  }

  /** Distinct ordinals never print alike. */
  lemma FormatInjective(m: nat, n: nat)
    ensures FormatOrdinal(Some(m)) == FormatOrdinal(Some(n)) ==> m == n
  {
    ParseFormatted(m);
    ParseFormatted(n);
  }

  /** A formatted ordinal keeps every digit and is at least three long. */
  lemma FormatNeverTruncates(n: nat)
    ensures |FormatOrdinal(Some(n))| == Max(3, |NatToString(n)|)
    ensures FormatOrdinal(Some(n))[|FormatOrdinal(Some(n))| - |NatToString(n)|..] == NatToString(n)
  {
    PadStartKeepsText(NatToString(n), 3, '0');
  }

  /** `parseInt("NaN")` is NaN: an unparsable number stays unparsable once printed. */
  lemma ParseNaN()
    ensures ParseInt(FormatOrdinal(None)) == None
  {
    assert DigitValue('N') == Some(23);
  }
}

=== FILE: queue_page.dfy ===
/** The logic of the admin queue page, app/admin/queue/page.tsx: which buttons
    a token's status offers and what each one sends, the status filter applied
    to the fetched list, and the condition for the new-token banner. */
module QueuePage {
  import opened Wrappers
  import opened Seqs
  import opened Store
  import Transitions
  import Views
  import Booking

  /** The page's three buttons. */
  datatype Action = StartService | CompleteService | CancelToken

  /** The buttons a token row shows: "Start Service" and "Cancel" while
      waiting, "Complete" and "Cancel" while in progress, none otherwise. */
  function Offered(status: Status): (r: set<Action>)
    ensures StartService in r <==> status == Waiting
    ensures CompleteService in r <==> status == InProgress
    ensures CancelToken in r <==> status == Waiting || status == InProgress
  {
    match status
    case Waiting => {StartService, CancelToken}
    case InProgress => {CompleteService, CancelToken}
    case _ => {}
  }

  /** The status a button sends. */
  function Target(a: Action): Status {
    match a
    case StartService => InProgress
    case CompleteService => Completed
    case CancelToken => Cancelled
  }

  /** The counter a button sends: "Start Service" sends counter 1; the others
      send none, so the body carries no `counter_id`. */
  function CounterSent(a: Action): Option<nat> {
    if a == StartService then Some(1) else None
  }

  /** The token lifecycle the page drives, stated on its own: a waiting token
      is started or cancelled, one in service is completed or cancelled. */
  predicate Step(from: Status, to: Status) {
    || (from == Waiting && (to == InProgress || to == Cancelled))
    || (from == InProgress && (to == Completed || to == Cancelled))
  }

  /** The buttons offered are exactly the lifecycle's steps, in both directions. */
  lemma OfferedAreSteps(from: Status, to: Status)
    ensures (exists a :: a in Offered(from) && Target(a) == to) <==> Step(from, to)
  {
    if Step(from, to) {
      var a := if to == InProgress then StartService else if to == Completed then CompleteService else CancelToken;
      assert a in Offered(from) && Target(a) == to;
    }
  }

  /** Completed and cancelled tokens offer no button and have no next step. */
  lemma FinishedIsTerminal(s: Status, to: Status)
    requires s == Completed || s == Cancelled
    ensures Offered(s) == {} && !Step(s, to)
  {
  }

  /** How many more buttons a token of this status can still go through. */
  function Remaining(s: Status): nat {
    match s
    case Waiting => 2
    case InProgress => 1
    case _ => 0
  }

  /** The status after pressing `actions` in turn, or `None` once a button
      is pressed that the row does not show. */
  function Run(s: Status, actions: seq<Action>): Option<Status>
    decreases |actions|
  {
    if actions == [] then Some(s)
    else if actions[0] in Offered(s) then Run(Target(actions[0]), actions[1..])
    else None
  }

  /** Every button moves a token forward, so a token passes through at most
      two buttons and always ends in a status with a lifecycle step behind it. */
  lemma {:induction false} RunsAreShort(s: Status, actions: seq<Action>)
    requires Run(s, actions).Some?
    ensures |actions| <= Remaining(s)
    ensures actions != [] ==> Remaining(Run(s, actions).value) < Remaining(s)
    decreases |actions|
  {
    if actions != [] {
      var next := Target(actions[0]);
      assert Remaining(next) < Remaining(s);
      RunsAreShort(next, actions[1..]);
    }
  }

  /** Pressing a button on a row: `PATCH /api/admin/tokens/{id}` with the
      button's status and counter. */
  function Press(store: seq<Token>, id: nat, a: Action, now: nat): (o: Outcome<Token>)
    ensures o.response.Ok? <==> exists j :: 0 <= j < |store| && store[j].id == id
    ensures o.response.Err? ==> o == Outcome(Err(NotFound), store)
    ensures o.response.Ok? ==> |o.store| == |store|
    ensures o.response.Ok? ==> forall j :: 0 <= j < |store| && store[j].id != id ==> o.store[j] == store[j]
    ensures o.response.Ok? ==> forall j :: 0 <= j < |store| && store[j].id == id ==>
      o.store[j] == store[j].(status := Target(a), updatedAt := now,
                              counterId := if a == StartService then Some(1) else store[j].counterId)
  {
    Transitions.PatchStatus(store, id, Some(Target(a)), CounterSent(a), now)
  }

  /** A button the row shows moves that row one lifecycle step. */
  lemma PressTakesAStep(store: seq<Token>, i: nat, a: Action, now: nat)
    requires i < |store| && a in Offered(store[i].status)
    ensures var o := Press(store, store[i].id, a, now);
      o.response.Ok? && Step(store[i].status, o.store[i].status)
  {
  }

  /** `filteredTokens`: everything under `all`, otherwise the rows whose
      status text equals the selection. */
  function PageFilter(tokens: seq<Token>, selected: string): (r: seq<Token>)
    ensures selected == "all" ==> r == tokens
    ensures selected != "all" ==>
      forall t :: multiset(r)[t] == if StatusName(t.status) == selected then multiset(tokens)[t] else 0
  {
    var keep := (t: Token) => selected == "all" || StatusName(t.status) == selected;
    if selected == "all" then
      FilterAll(tokens, keep);
      Filter(tokens, keep)
    else
      Filter(tokens, keep)
  }

  /** The page filters the list the server already filtered with the same
      selection, and for every choice of its status menu it removes nothing. */
  lemma PageFilterKeepsFetched(store: seq<Token>, services: map<nat, Service>, selected: string)
    requires selected == "all" || ParseStatus(selected).Some?
    ensures var fetched := Views.AdminList(store, services, Some(selected));
      PageFilter(fetched, selected) == fetched
  {
    var fetched := Views.AdminList(store, services, Some(selected));
    if selected != "all" {
      forall i | 0 <= i < |fetched|
        ensures StatusName(fetched[i].status) == selected
      {
        assert fetched[i] in multiset(fetched);
      }
      FilterAll(fetched, (t: Token) => selected == "all" || StatusName(t.status) == selected);
    }
  }

  /** The banner condition: a silent poll returned more rows than the count
      it is compared with, and that count was not zero. */
  predicate NewTokenAlert(silent: bool, fetched: nat, previous: nat) {
    silent && fetched > previous && previous > 0
  }

  /** The banner condition in the intended reading, where a poll is compared
      with the count of the poll before it: it holds on the first silent poll
      after a booking when that earlier poll listed any row, and never on an
      explicit refresh or when the list did not grow. The timer the page
      mounts compares with a stale count instead; see `MountedPollingNeverAlerts`. */
  lemma AlertAfterBooking(req: Booking.BookingRequest, store: seq<Token>, services: map<nat, Service>, today: nat, now: nat)
    requires Booking.Complete(req) && req.serviceId.value in services
    ensures var o := Booking.Book(req, store, services, today, now);
      var previous := |Views.AdminList(store, services, Some("all"))|;
      var fetched := |Views.AdminList(o.store, services, Some("all"))|;
      && (NewTokenAlert(true, fetched, previous) <==> previous > 0)
      && !NewTokenAlert(false, fetched, previous)
      && !NewTokenAlert(true, previous, previous)
  {
    var o := Booking.Book(req, store, services, today, now);
    Views.AdminListAfterBooking(req, store, services, today, now);
    var before := Views.AdminList(store, services, None);
    var after := Views.AdminList(o.store, services, None);
    assert |multiset(after)| == |multiset(before)| + 1;
    assert Views.AdminList(store, services, Some("all")) == before;
    assert Views.AdminList(o.store, services, Some("all")) == after;
  }

  /** The banners of a run of silent polls as the page is written: every poll
      compares with the count `captured` when polling started, because the
      timer keeps the closure of the render that started it. */
  function AlertsAsWritten(captured: nat, polls: seq<nat>): (r: seq<bool>)
    ensures |r| == |polls|
    ensures forall k :: 0 <= k < |polls| ==> r[k] == NewTokenAlert(true, polls[k], captured)
  {
    seq(|polls|, k requires 0 <= k < |polls| => NewTokenAlert(true, polls[k], captured))
  }

  /** The banners the page means to raise: each poll compares with the poll
      before it, the first with the count of the initial load. */
  function Alerts(initial: nat, polls: seq<nat>): (r: seq<bool>)
    ensures |r| == |polls|
    ensures forall k :: 0 <= k < |polls| ==> r[k] == NewTokenAlert(true, polls[k], PreviousCount(initial, polls, k))
  {
    seq(|polls|, k requires 0 <= k < |polls| => NewTokenAlert(true, polls[k], PreviousCount(initial, polls, k)))
  }

  function PreviousCount(initial: nat, polls: seq<nat>, k: nat): nat
    requires k < |polls|
  {
    if k == 0 then initial else polls[k - 1]
  }

  /** Polling starts on mount, when the stored count is still 0: as written,
      no poll of that timer ever raises the banner, however the list grows. */
  lemma MountedPollingNeverAlerts(polls: seq<nat>)
    ensures forall k :: 0 <= k < |polls| ==> !AlertsAsWritten(0, polls)[k]
  {
  }

  /** A list of 3 that grows to 4 on the second poll: the intended banner
      rises once; the mounted timer raises none. */
  lemma AlertCounterexample()
    ensures Alerts(3, [3, 4]) == [false, true]
    ensures AlertsAsWritten(0, [3, 4]) == [false, false]
  {
  }

  /** After the status selection changes, the new timer keeps the count the
      previous selection's list left behind, here 2: as written, a list of 10
      that never grows raises the banner on every poll; the intended reading
      raises it once, on the first poll. */
  lemma StaleCountAlertsEveryPoll()
    ensures AlertsAsWritten(2, [10, 10, 10]) == [true, true, true]
    ensures Alerts(2, [10, 10, 10]) == [true, false, false]
  {
  }

  /** In the intended reading, a banner rises exactly when the list grew
      since the poll before, from a non-empty list. */
  lemma AlertsFollowGrowth(initial: nat, polls: seq<nat>, k: nat)
    requires 0 < k < |polls|
    ensures Alerts(initial, polls)[k] <==> polls[k - 1] < polls[k] && polls[k - 1] > 0
  {
  }
}

=== FILE: recalc.dfy ===
/** `POST` in app/api/admin/tokens/update-positions/route.ts: every waiting
    row is ranked within its service by `created_at` (`ROW_NUMBER() OVER
    (PARTITION BY service_id ORDER BY created_at)`), and its
    `estimated_wait_time` becomes rank times the service duration. */
module Recalc {
  import opened Wrappers
  import opened Store

  /** Row `j` is a waiting row of service `serviceId`. */
  predicate WaitingFor(store: seq<Token>, serviceId: nat, j: nat)
    requires j < |store|
  {
    store[j].status == Waiting && store[j].serviceId == serviceId
  }

  /** The waiting rows of the same service that come before row `i`. */
  function Ahead(store: seq<Token>, i: nat): (a: set<nat>)
    requires i < |store|
    ensures forall j: nat :: j in a <==> j < |store| && WaitingFor(store, store[i].serviceId, j) && Precedes(store, j, i)
  {
    set j: nat | j < |store| && WaitingFor(store, store[i].serviceId, j) && Precedes(store, j, i)
  }

  /** The `ROW_NUMBER()` of a waiting row: one more than the rows ahead of it. */
  function Rank(store: seq<Token>, i: nat): nat
    requires i < |store|
  {
    |Ahead(store, i)| + 1
  }

  /** Rank 1 goes exactly to a row with no earlier waiting row of its service. */
  lemma RankOneIsFirst(store: seq<Token>, i: nat)
    requires i < |store|
    ensures Rank(store, i) == 1 <==>
      forall j :: 0 <= j < |store| && WaitingFor(store, store[i].serviceId, j) ==> !Precedes(store, j, i)
  {
    if Rank(store, i) != 1 {
      var j :| j in Ahead(store, i);
    }
  }

  /** The waiting rows of a service. */
  function WaitingRows(store: seq<Token>, serviceId: nat): (w: set<nat>)
    ensures forall j: nat :: j in w <==> j < |store| && WaitingFor(store, serviceId, j)
  {
    set j: nat | j < |store| && WaitingFor(store, serviceId, j)
  }

  /** `service[0]?.estimated_duration || 15`: a missing service and a zero
      duration both fall back to 15 minutes. */
  function DurationOrDefault(services: map<nat, Service>, serviceId: nat): (d: nat)
    ensures d > 0
    ensures serviceId !in services ==> d == 15
    ensures serviceId in services && services[serviceId].duration == 0 ==> d == 15
    ensures serviceId in services && services[serviceId].duration != 0 ==> d == services[serviceId].duration
  {
    if serviceId in services && services[serviceId].duration != 0 then services[serviceId].duration else 15
  }

  /** The estimate written for waiting row `i`. */
  function NewEstimate(store: seq<Token>, services: map<nat, Service>, i: nat): nat
    requires i < |store|
  {
    Rank(store, i) * DurationOrDefault(services, store[i].serviceId)
  }

  /** The table the recalculation leaves behind when ids are unique: every
      waiting row carries its new estimate, every other row is as it was, and
      no column but `estimated_wait_time` changes. */
  function Recalculated(store: seq<Token>, services: map<nat, Service>): (r: seq<Token>)
    ensures |r| == |store|
    ensures forall i :: 0 <= i < |r| ==> r[i] == store[i].(estimatedWait := r[i].estimatedWait)
    ensures forall i :: 0 <= i < |r| && store[i].status != Waiting ==> r[i] == store[i]
    ensures forall i :: 0 <= i < |r| && store[i].status == Waiting ==>
      r[i].estimatedWait == Some(Rank(store, i) * DurationOrDefault(services, store[i].serviceId))
  {
    seq(|store|, i requires 0 <= i < |store| =>
      if store[i].status == Waiting then store[i].(estimatedWait := Some(NewEstimate(store, services, i))) else store[i])
  }

  /** The handler itself: one `UPDATE … WHERE id = …` per waiting row, each
      estimate computed from the table as it was read. With unique ids this
      is `Recalculated`; in any case only `estimated_wait_time` changes. */
  method UpdatePositions(store: seq<Token>, services: map<nat, Service>) returns (r: seq<Token>)
    ensures |r| == |store|
    ensures forall i :: 0 <= i < |r| ==> r[i] == store[i].(estimatedWait := r[i].estimatedWait)
    ensures UniqueIds(store) ==> r == Recalculated(store, services)
  {
    r := store;
    var i := 0;
    while i < |store|
      invariant 0 <= i <= |store| && |r| == |store|
      invariant forall k :: 0 <= k < |r| ==> r[k] == store[k].(estimatedWait := r[k].estimatedWait)
      invariant UniqueIds(store) ==> forall k :: 0 <= k < |r| ==>
        r[k] == if k < i && store[k].status == Waiting then Recalculated(store, services)[k] else store[k]
    {
      if store[i].status == Waiting {
        var estimate := NewEstimate(store, services, i);
        r := UpdateWhereId(r, store[i].id, (t: Token) => t.(estimatedWait := Some(estimate)));
      }
      i := i + 1;
    }
  }

  /** Ranking reads only the status, service and `created_at` columns. */
  lemma {:induction false} RankDependsOnKeys(s: seq<Token>, s': seq<Token>, i: nat)
    requires |s| == |s'| && i < |s|
    requires forall j :: 0 <= j < |s| ==>
      s[j].status == s'[j].status && s[j].serviceId == s'[j].serviceId && s[j].createdAt == s'[j].createdAt
    ensures Rank(s, i) == Rank(s', i)
  {
    assert Ahead(s, i) == Ahead(s', i);
  }

  /** Running the recalculation twice leaves the table as running it once. */
  lemma RecalcIdempotent(store: seq<Token>, services: map<nat, Service>)
    ensures Recalculated(Recalculated(store, services), services) == Recalculated(store, services)
  {
    var once := Recalculated(store, services);
    var twice := Recalculated(once, services);
    forall i | 0 <= i < |store|
      ensures twice[i] == once[i]
    {
      if store[i].status == Waiting {
        RankDependsOnKeys(store, once, i);
      }
    }
  }

  /** Within a service, an earlier waiting row has a smaller rank, and only
      an earlier one does. */
  lemma RankFollowsCreatedAt(store: seq<Token>, i: nat, j: nat)
    requires i < |store| && j < |store| && i != j
    requires store[i].status == Waiting && store[j].status == Waiting && store[i].serviceId == store[j].serviceId
    ensures Rank(store, j) < Rank(store, i) <==> Precedes(store, j, i)
  {
    if Precedes(store, j, i) {
      AheadNested(store, j, i);
    } else {
      assert Precedes(store, i, j);
      AheadNested(store, i, j);
    }
  }

  /** If waiting row `j` comes before row `i` of the same service, everything
      ahead of `j` is ahead of `i`, and so is `j`. */
  lemma AheadNested(store: seq<Token>, j: nat, i: nat)
    requires i < |store| && j < |store|
    requires WaitingFor(store, store[i].serviceId, j) && Precedes(store, j, i)
    ensures Ahead(store, j) < Ahead(store, i)
    ensures |Ahead(store, j)| < |Ahead(store, i)|
  {
    assert j in Ahead(store, i) && j !in Ahead(store, j);
    assert Ahead(store, j) < Ahead(store, i);
    CardStrictSubset(Ahead(store, j), Ahead(store, i));
  }

  /** Every rank lies between 1 and the number of waiting rows of the service. */
  lemma RankInRange(store: seq<Token>, i: nat)
    requires i < |store| && store[i].status == Waiting
    ensures 1 <= Rank(store, i) <= |WaitingRows(store, store[i].serviceId)|
  {
    var w := WaitingRows(store, store[i].serviceId);
    assert Ahead(store, i) <= w - {i};
    assert i in w;
    CardSubset(Ahead(store, i), w - {i});
  }

  lemma CardStrictSubset(a: set<nat>, b: set<nat>)
    requires a < b
    ensures |a| < |b|
  {
    assert b == a + (b - a);
    assert b - a != {};
  }

  lemma CardSubset(a: set<nat>, b: set<nat>)
    requires a <= b
    ensures |a| <= |b|
  {
    assert b == a + (b - a);
  }

  /** The ranks of one service's waiting rows are exactly 1, 2, …, N, where N
      is the number of those rows: each rank is taken by one row. */
  lemma RanksAreOneToN(store: seq<Token>, serviceId: nat)
    ensures var w := WaitingRows(store, serviceId);
      (set i | i in w :: Rank(store, i)) == OneTo(|w|)
  {
    var w := WaitingRows(store, serviceId);
    var ranks := set i | i in w :: Rank(store, i);
    var range := OneTo(|w|);
    forall i | i in w
      ensures Rank(store, i) in range
    {
      RankInRange(store, i);
    }
    assert ranks <= range;
    forall i, j | i in w && j in w && i != j
      ensures Rank(store, i) != Rank(store, j)
    {
      RankFollowsCreatedAt(store, i, j);
      if !Precedes(store, j, i) {
        assert Precedes(store, i, j);
        RankFollowsCreatedAt(store, j, i);
      }
    }
    InjectiveImage(w, store);
    SubsetOfEqualSize(ranks, range);
  }

  /** Distinct rows of a set that rank differently give as many ranks as rows. */
  lemma {:induction false} InjectiveImage(w: set<nat>, store: seq<Token>)
    requires forall i :: i in w ==> i < |store|
    requires forall i, j :: i in w && j in w && i != j ==> Rank(store, i) != Rank(store, j)
    ensures |set i | i in w :: Rank(store, i)| == |w|
    decreases |w|
  {
    if w != {} {
      var x :| x in w;
      var rest := w - {x};
      InjectiveImage(rest, store);
      var image := set i | i in w :: Rank(store, i);
      var restImage := set i | i in rest :: Rank(store, i);
      assert image == restImage + {Rank(store, x)};
      assert Rank(store, x) !in restImage;
    }
  }

  /** The ranks a service of `n` waiting rows should have: 1 to `n`. */
  function OneTo(n: nat): (s: set<nat>)
    ensures forall r: nat :: r in s <==> 1 <= r <= n
    ensures |s| == n
  {
    if n == 0 then {} else OneTo(n - 1) + {n}
  }

  lemma SubsetOfEqualSize(a: set<nat>, b: set<nat>)
    requires a <= b && |a| == |b|
    ensures a == b
  {
    assert b == a + (b - a);
    assert |b - a| == 0;
  }

  /** Services are ranked independently: a row appended for another service,
      or one that is not waiting, changes no existing row's rank. */
  lemma RankIgnoresOtherRows(store: seq<Token>, x: Token, i: nat)
    requires i < |store|
    requires x.serviceId != store[i].serviceId || x.status != Waiting
    ensures Rank(store + [x], i) == Rank(store, i)
  {
    var s := store + [x];
    assert forall j :: 0 <= j < |store| ==> s[j] == store[j];
    assert s[|store|] == x;
    assert Ahead(s, i) == Ahead(store, i);
  }
}

=== FILE: seqs.dfy ===
/** The relational operators the handlers use, over sequences of rows:
    `WHERE` is `Filter`, `ORDER BY` is `SortBy`, `ORDER BY … LIMIT n` is `TopK`
    and `COUNT(*)` with a `WHERE` is `Count`. */
module Seqs {
  import opened Wrappers

  /** `le` is total and transitive: an `ORDER BY` key, ties allowed. */
  ghost predicate TotalPreorder<T(!new)>(le: (T, T) -> bool) {
    && (forall a, b :: le(a, b) || le(b, a))
    && (forall a, b, c :: le(a, b) && le(b, c) ==> le(a, c))
  }

  ghost predicate Sorted<T(!new)>(s: seq<T>, le: (T, T) -> bool) {
    forall i, j :: 0 <= i < j < |s| ==> le(s[i], s[j])
  }

  /** `SELECT … WHERE p`: keeps exactly the rows satisfying `p`, each as often as it occurs. */
  function Filter<T(!new)>(s: seq<T>, p: T -> bool): (r: seq<T>)
    ensures |r| <= |s|
    ensures forall x :: multiset(r)[x] == if p(x) then multiset(s)[x] else 0
    ensures forall x :: x in r <==> x in s && p(x)
  {
    if s == [] then []
    else
      assert s == [s[0]] + s[1..];
      (if p(s[0]) then [s[0]] else []) + Filter(s[1..], p)
  }

  /** A row appended to a table is selected after the others, if at all. */
  lemma {:induction false} FilterAppend<T(!new)>(s: seq<T>, x: T, p: T -> bool)
    ensures Filter(s + [x], p) == Filter(s, p) + (if p(x) then [x] else [])
  {
    var last := if p(x) then [x] else [];
    if s == [] {
      assert [x][1..] == [];
      assert s + [x] == [x];
    } else {
      var head := if p(s[0]) then [s[0]] else [];
      assert (s + [x])[0] == s[0];
      assert (s + [x])[1..] == s[1..] + [x];
      FilterAppend(s[1..], x, p);
      assert Filter(s + [x], p) == head + (Filter(s[1..], p) + last);
      ConcatAssociates(head, Filter(s[1..], p), last);
    }
  }

  lemma ConcatAssociates<T>(a: seq<T>, b: seq<T>, c: seq<T>)
    ensures a + (b + c) == (a + b) + c
  {
  }

  /** A condition every row meets selects the whole table. */
  lemma {:induction false} FilterAll<T(!new)>(s: seq<T>, p: T -> bool)
    requires forall i :: 0 <= i < |s| ==> p(s[i])
    ensures Filter(s, p) == s
  {
    if s != [] {
      FilterAll(s[1..], p);
    }
  }

  /** `SELECT COUNT(*) … WHERE p`. */
  function Count<T(!new)>(s: seq<T>, p: T -> bool): (n: nat)
    ensures n <= |s|
  {
    if s == [] then 0 else (if p(s[0]) then 1 else 0) + Count(s[1..], p)
  }

  /** A row appended to a table adds one to every count whose condition it meets. */
  lemma {:induction false} CountAppend<T(!new)>(s: seq<T>, x: T, p: T -> bool)
    ensures Count(s + [x], p) == Count(s, p) + (if p(x) then 1 else 0)
  {
    if s == [] {
      assert [x][1..] == [];
    } else {
      assert (s + [x])[1..] == s[1..] + [x];
      CountAppend(s[1..], x, p);
    }
  }

  /** Changing one row changes a count by at most that row's contribution. */
  lemma {:induction false} CountPointUpdate<T(!new)>(s: seq<T>, s': seq<T>, k: nat, p: T -> bool)
    requires |s| == |s'| && k < |s|
    requires forall i :: 0 <= i < |s| && i != k ==> s[i] == s'[i]
    ensures Count(s', p) == Count(s, p) - (if p(s[k]) then 1 else 0) + (if p(s'[k]) then 1 else 0)
  {
    if k == 0 {
      assert s[1..] == s'[1..];
    } else {
      CountPointUpdate(s[1..], s'[1..], k - 1, p);
    }
  }

  /** Two conditions that never hold together count no more than the table. */
  lemma {:induction false} CountDisjoint<T(!new)>(s: seq<T>, p: T -> bool, q: T -> bool, both: T -> bool)
    requires forall x :: !(p(x) && q(x))
    requires forall x :: both(x) <==> p(x) || q(x)
    ensures Count(s, p) + Count(s, q) == Count(s, both)
  {
    if s != [] {
      CountDisjoint(s[1..], p, q, both);
    }
  }

  /** A stricter condition counts no more rows. */
  lemma {:induction false} CountMonotone<T(!new)>(s: seq<T>, p: T -> bool, q: T -> bool)
    requires forall x :: p(x) ==> q(x)
    ensures Count(s, p) <= Count(s, q)
  {
    if s != [] {
      CountMonotone(s[1..], p, q);
    }
  }

  function Insert<T(!new)>(x: T, s: seq<T>, le: (T, T) -> bool): (r: seq<T>)
    requires TotalPreorder(le) && Sorted(s, le)
    ensures Sorted(r, le)
    ensures multiset(r) == multiset(s) + multiset{x}
    ensures |r| == |s| + 1
    decreases |s|
  {
    if s == [] then [x]
    else if le(x, s[0]) then [x] + s
    else
      assert s == [s[0]] + s[1..];
      var rest := Insert(x, s[1..], le);
      assert forall y :: y in rest ==> le(s[0], y) by {
        forall y | y in rest
          ensures le(s[0], y)
        {
          assert y in multiset(rest);
          if y != x {
            assert y in s[1..];
          }
        }
      }
      [s[0]] + rest
  }

  /** `ORDER BY le`: a sorted permutation of the rows. */
  function SortBy<T(!new)>(s: seq<T>, le: (T, T) -> bool): (r: seq<T>)
    requires TotalPreorder(le)
    ensures Sorted(r, le)
    ensures multiset(r) == multiset(s)
    ensures |r| == |s|
  {
    if s == [] then []
    else
      assert s == [s[0]] + s[1..];
      Insert(s[0], SortBy(s[1..], le), le)
  }

  /** `ORDER BY le LIMIT n`: the first `n` rows of a sorted permutation. No
      row left out comes strictly before a row kept. */
  function TopK<T(!new)>(s: seq<T>, le: (T, T) -> bool, n: nat): (r: seq<T>)
    requires TotalPreorder(le)
    ensures |r| == Min(n, |s|)
    ensures Sorted(r, le)
    ensures multiset(r) <= multiset(s)
    ensures |s| <= n ==> multiset(r) == multiset(s)
    ensures forall u, t :: u in r && t in multiset(s) - multiset(r) ==> le(u, t)
  {
    var sorted := SortBy(s, le);
    var k := Min(n, |s|);
    assert sorted == sorted[..k] + sorted[k..];
    assert multiset(sorted) == multiset(sorted[..k]) + multiset(sorted[k..]);
    forall u, t | u in sorted[..k] && t in multiset(s) - multiset(sorted[..k])
      ensures le(u, t)
    {
      assert t in sorted[k..];
      var i :| 0 <= i < k && sorted[i] == u;
      var j :| 0 <= j < |sorted[k..]| && sorted[k..][j] == t;
      assert sorted[k + j] == t;
    }
    sorted[..k]
  }
  /** `SELECT … WHERE p ORDER BY le LIMIT n`: the rows kept satisfy `p`, occur
      no more often than in `s`, and none left out sorts strictly before one
      kept; below the limit nothing is left out. */
  lemma TopKSelects<T(!new)>(s: seq<T>, p: T -> bool, le: (T, T) -> bool, n: nat)
    requires TotalPreorder(le)
    ensures var r := TopK(Filter(s, p), le, n);
      && (forall t :: t in r ==> t in s && p(t))
      && (forall t :: multiset(r)[t] <= multiset(s)[t])
      && (forall u, t :: u in r && t in s && p(t) && t !in r ==> le(u, t))
      && (|r| < n ==> forall t :: multiset(r)[t] == if p(t) then multiset(s)[t] else 0)
  {
    var c := Filter(s, p);
    var r := TopK(c, le, n);
    forall t | t in r
      ensures t in s && p(t)
    {
      assert t in multiset(c);
    }
    forall u, t | u in r && t in s && p(t) && t !in r
      ensures le(u, t)
    {
      assert t in multiset(c) - multiset(r);
    }
    forall t
      ensures multiset(r)[t] <= multiset(s)[t]
    {
      assert multiset(r)[t] <= multiset(c)[t];
    }
    if |r| < n {
      assert |c| <= n;
    }
  }

}

=== FILE: store.dfy ===
/** The `tokens` and `services` tables, as immutable values. A handler that
    writes returns a new token sequence; one that only reads returns none. */
module Store {
  import opened Wrappers

  /** Values of `tokens.status`. The route handlers write the first four;
      `Called` and `Serving` are only read, by `getActiveTokens` in lib/database.ts. */
  datatype Status = Waiting | InProgress | Completed | Cancelled | Called | Serving

  /** The text stored in the `status` column. */
  function StatusName(s: Status): string {
    match s
    case Waiting => "waiting"
    case InProgress => "in_progress"
    case Completed => "completed"
    case Cancelled => "cancelled"
    case Called => "called"
    case Serving => "serving"
  }

  /** Reads the `status` column back; any other text names no status. */
  function ParseStatus(text: string): (r: Option<Status>)
    ensures r.Some? ==> StatusName(r.value) == text
  {
    if text == "waiting" then Some(Waiting)
    else if text == "in_progress" then Some(InProgress)
    else if text == "completed" then Some(Completed)
    else if text == "cancelled" then Some(Cancelled)
    else if text == "called" then Some(Called)
    else if text == "serving" then Some(Serving)
    else None
  }

  /** Every status is stored under its own name: comparing names compares statuses. */
  lemma StatusNameRoundTrip(s: Status)
    ensures ParseStatus(StatusName(s)) == Some(s)
  {
  }

  /** One row of `tokens`. Nullable columns are `Option`s; `day` is
      `DATE(created_at)`. */
  datatype Token = Token(
    id: nat,
    tokenNumber: string,
    serviceId: nat,
    branchId: nat,
    customerName: Option<string>,
    customerPhone: Option<string>,
    customerEmail: Option<string>,
    status: Status,
    positionInQueue: Option<int>,
    estimatedWait: Option<nat>,
    counterId: Option<nat>,
    priority: Option<int>,
    createdAt: nat,
    updatedAt: nat,
    day: nat)

  /** One row of `services`, keyed by id in a `map`. */
  datatype Service = Service(name: string, duration: nat, active: bool, branchId: nat)

  /** One row of `branches`, keyed by id in a `map`. */
  datatype Branch = Branch(name: string, active: bool, organizationId: nat)

  /** A writing handler's answer together with the table it leaves behind. */
  datatype Outcome<+T> = Outcome(response: Response<T>, store: seq<Token>)

  /** `tokens.id` is the primary key. */
  predicate UniqueIds(store: seq<Token>) {
    forall i, j :: 0 <= i < j < |store| ==> store[i].id != store[j].id
  }

  /** The serial id the database gives the next inserted row. */
  function NextId(store: seq<Token>): (id: nat)
    ensures forall i :: 0 <= i < |store| ==> store[i].id < id
  {
    if store == [] then 1
    else
      var rest := NextId(store[1..]);
      assert forall i :: 1 <= i < |store| ==> store[i] == store[1..][i - 1];
      if store[0].id < rest then rest else store[0].id + 1
  }

  /** Row `j` comes before row `i` under `ORDER BY created_at ASC`. The
      database leaves equal timestamps in no particular order; the model
      breaks such ties by position in the table. This is a strict total
      order on row positions. */
  predicate Precedes(store: seq<Token>, j: nat, i: nat)
    requires j < |store| && i < |store|
  {
    store[j].createdAt < store[i].createdAt || (store[j].createdAt == store[i].createdAt && j < i)
  }

  function EarliestBelow(store: seq<Token>, p: Token -> bool, n: nat): (r: Option<nat>)
    requires n <= |store|
    ensures r.Some? ==> r.value < n && p(store[r.value])
    ensures r.Some? ==> forall j :: 0 <= j < n && j != r.value && p(store[j]) ==> Precedes(store, r.value, j)
    ensures r.None? ==> forall j :: 0 <= j < n ==> !p(store[j])
  {
    if n == 0 then None
    else
      var r := EarliestBelow(store, p, n - 1);
      if p(store[n - 1]) && (r.None? || store[n - 1].createdAt < store[r.value].createdAt) then Some(n - 1)
      else r
  }

  /** `… WHERE p ORDER BY created_at ASC LIMIT 1`: the position of the first row. */
  function Earliest(store: seq<Token>, p: Token -> bool): (r: Option<nat>)
    ensures r.Some? ==> r.value < |store| && p(store[r.value])
    ensures r.Some? ==> forall j :: 0 <= j < |store| && j != r.value && p(store[j]) ==> Precedes(store, r.value, j)
    ensures r.None? ==> forall j :: 0 <= j < |store| ==> !p(store[j])
  {
    EarliestBelow(store, p, |store|)
  }

  function LatestBelow(store: seq<Token>, p: Token -> bool, n: nat): (r: Option<nat>)
    requires n <= |store|
    ensures r.Some? ==> r.value < n && p(store[r.value])
    ensures r.Some? ==> forall j :: 0 <= j < n && j != r.value && p(store[j]) ==> Precedes(store, j, r.value)
    ensures r.None? ==> forall j :: 0 <= j < n ==> !p(store[j])
  {
    if n == 0 then None
    else
      var r := LatestBelow(store, p, n - 1);
      if p(store[n - 1]) && (r.None? || store[r.value].createdAt <= store[n - 1].createdAt) then Some(n - 1)
      else r
  }

  /** `… WHERE p ORDER BY created_at DESC LIMIT 1`: the position of the newest row. */
  function Latest(store: seq<Token>, p: Token -> bool): (r: Option<nat>)
    ensures r.Some? ==> r.value < |store| && p(store[r.value])
    ensures r.Some? ==> forall j :: 0 <= j < |store| && j != r.value && p(store[j]) ==> Precedes(store, j, r.value)
    ensures r.None? ==> forall j :: 0 <= j < |store| ==> !p(store[j])
  {
    LatestBelow(store, p, |store|)
  }

  /** A row whose `created_at` is later than every other row's is the newest
      row of every condition it meets. */
  lemma NewestRowIsLatest(store: seq<Token>, p: Token -> bool)
    requires store != [] && p(store[|store| - 1])
    requires forall j :: 0 <= j < |store| - 1 ==> store[j].createdAt < store[|store| - 1].createdAt
    ensures Latest(store, p) == Some(|store| - 1)
  {
  }

  /** `UPDATE tokens SET … WHERE id = ${id}`: `f` is applied to every row with that id. */
  function UpdateWhereId(store: seq<Token>, id: nat, f: Token -> Token): (r: seq<Token>)
    ensures |r| == |store|
    ensures forall i :: 0 <= i < |r| ==> r[i] == if store[i].id == id then f(store[i]) else store[i]
  {
    seq(|store|, i requires 0 <= i < |store| => if store[i].id == id then f(store[i]) else store[i])
  }

  /** With unique ids, updating by a row's id rewrites that row and no other. */
  lemma UpdateOneRow(store: seq<Token>, i: nat, f: Token -> Token)
    requires UniqueIds(store) && i < |store|
    ensures UpdateWhereId(store, store[i].id, f) == store[i := f(store[i])]
  {
    var r := UpdateWhereId(store, store[i].id, f);
    forall j | 0 <= j < |store| && j != i
      ensures r[j] == store[j]
    {
      if j < i {
        assert store[j].id != store[i].id;
      } else {
        assert store[i].id != store[j].id;
      }
    }
  }
}

=== FILE: transitions.dfy ===
/** Handlers that move a token through its lifecycle or look one up:
    `POST` in app/api/admin/tokens/call-next/route.ts, `PATCH` in
    app/api/admin/tokens/[id]/route.ts (which the queue page's buttons call),
    and `GET` in app/api/tokens/track/route.ts. */
module Transitions {
  import opened Wrappers
  import opened Seqs
  import opened Store
  import Booking
  import Recalc

  function IsWaiting(t: Token): bool { t.status == Waiting }

  function IsInProgress(t: Token): bool { t.status == InProgress }

  /** The row `call-next` picks: the earliest waiting row over every service
      and branch. */
  function NextToCall(store: seq<Token>): (r: Option<nat>)
    ensures r.Some? ==> r.value < |store| && store[r.value].status == Waiting
    ensures r.Some? ==> forall j :: 0 <= j < |store| && j != r.value && store[j].status == Waiting ==> Precedes(store, r.value, j)
    ensures r.None? <==> forall j :: 0 <= j < |store| ==> store[j].status != Waiting
  {
    Earliest(store, IsWaiting)
  }

  /** `SET status = 'in_progress', counter_id = 1, updated_at = NOW()`. */
  function StartAtCounterOne(now: nat): Token -> Token {
    (t: Token) => t.(status := InProgress, counterId := Some(1), updatedAt := now)
  }

  /** `POST /api/admin/tokens/call-next`: 404 and no write when nothing waits;
      otherwise every row with the picked row's id is started at counter 1,
      and the picked row as updated is returned. */
  function CallNext(store: seq<Token>, now: nat): (o: Outcome<Token>)
    ensures o.response.Err? <==> forall j :: 0 <= j < |store| ==> store[j].status != Waiting
    ensures o.response.Err? ==> o == Outcome(Err(NotFound), store)
    ensures o.response.Ok? ==>
      var i := NextToCall(store).value;
      && |o.store| == |store|
      && o.response.value == store[i].(status := InProgress, counterId := Some(1), updatedAt := now)
      && (forall j :: 0 <= j < |store| ==>
            o.store[j] == if store[j].id == store[i].id then store[j].(status := InProgress, counterId := Some(1), updatedAt := now) else store[j])
  {
    match NextToCall(store)
    case None => Outcome(Err(NotFound), store)
    case Some(i) =>
      var after := UpdateWhereId(store, store[i].id, StartAtCounterOne(now));
      Outcome(Ok(after[i]), after)
  }

  /** With unique ids, `call-next` changes exactly one row: the earliest
      waiting one, which is now in progress at counter 1. One row leaves the
      waiting count and joins the in-progress count. */
  lemma CallNextMovesOneRow(store: seq<Token>, now: nat)
    requires UniqueIds(store)
    requires exists j :: 0 <= j < |store| && store[j].status == Waiting
    ensures var o := CallNext(store, now);
      var i := NextToCall(store).value;
      && o.response.Ok?
      && (forall j :: 0 <= j < |store| && j != i ==> o.store[j] == store[j])
      && o.store[i] == o.response.value && o.store[i].status == InProgress && o.store[i].counterId == Some(1)
      && Count(o.store, IsWaiting) == Count(store, IsWaiting) - 1
      && Count(o.store, IsInProgress) == Count(store, IsInProgress) + 1
  {
    var o := CallNext(store, now);
    var i := NextToCall(store).value;
    CountPointUpdate(store, o.store, i, IsWaiting);
    CountPointUpdate(store, o.store, i, IsInProgress);
  }

  /** The row `call-next` picks is first in its service's ranking, as the
      recalculation numbers it. */
  lemma CallNextPicksRankOne(store: seq<Token>)
    requires NextToCall(store).Some?
    ensures Recalc.Rank(store, NextToCall(store).value) == 1
  {
    var i := NextToCall(store).value;
    forall j: nat | j < |store| && j != i && store[j].status == Waiting
      ensures !Precedes(store, j, i)
    {
      assert Precedes(store, i, j);
    }
    assert Recalc.Ahead(store, i) == {};
  }

  /** `PATCH /api/admin/tokens/[id]`: a missing status gives 400. The counter
      is written only when a truthy one is sent. No row with the id gives 404;
      otherwise every such row is updated and the first is returned. */
  function PatchStatus(store: seq<Token>, id: nat, status: Option<Status>, counterId: Option<nat>, now: nat): (o: Outcome<Token>)
    ensures status.None? ==> o == Outcome(Err(BadRequest), store)
    ensures status.Some? && (forall j :: 0 <= j < |store| ==> store[j].id != id) ==> o == Outcome(Err(NotFound), store)
    ensures o.response.Ok? <==> status.Some? && exists j :: 0 <= j < |store| && store[j].id == id
    ensures o.response.Ok? ==>
      && |o.store| == |store|
      && o.response.value.id == id && o.response.value.status == status.value
      && (forall j :: 0 <= j < |store| && store[j].id != id ==> o.store[j] == store[j])
      && (forall j :: 0 <= j < |store| && store[j].id == id ==>
            o.store[j] == store[j].(status := status.value, updatedAt := now,
                                    counterId := if Booking.PresentId(counterId) then counterId else store[j].counterId))
  {
    if status.None? then Outcome(Err(BadRequest), store)
    else
      match Earliest(store, (t: Token) => t.id == id)
      case None => Outcome(Err(NotFound), store)
      case Some(i) =>
        var write := (t: Token) =>
          if Booking.PresentId(counterId) then t.(status := status.value, counterId := counterId, updatedAt := now)
          else t.(status := status.value, updatedAt := now);
        var after := UpdateWhereId(store, id, write);
        Outcome(Ok(after[i]), after)
  }

  /** The queue page's "Start Service" on the row `call-next` would pick has
      the same effect as `call-next`. */
  lemma StartMatchesCallNext(store: seq<Token>, now: nat)
    requires NextToCall(store).Some?
    ensures var i := NextToCall(store).value;
      PatchStatus(store, store[i].id, Some(InProgress), Some(1), now).store == CallNext(store, now).store
  {
    var i := NextToCall(store).value;
    var p := PatchStatus(store, store[i].id, Some(InProgress), Some(1), now);
    var c := CallNext(store, now);
    assert p.response.Ok?;
    assert forall j :: 0 <= j < |store| ==> p.store[j] == c.store[j];
  }

  /** The rows a tracking lookup matches. */
  function Matches(number: string, phone: string): Token -> bool {
    (t: Token) => t.tokenNumber == number && t.customerPhone == Some(phone)
  }

  /** `GET /api/tokens/track?token=…&phone=…`: both parameters must be
      non-empty (400); the id of the newest row with that number and phone is
      returned, or 404. The lookup writes nothing. */
  function Track(store: seq<Token>, number: Option<string>, phone: Option<string>): (r: Response<nat>)
    ensures !Booking.PresentText(number) || !Booking.PresentText(phone) ==> r == Err(BadRequest)
    ensures Booking.PresentText(number) && Booking.PresentText(phone) ==>
      (r.Err? <==> forall j :: 0 <= j < |store| ==> !(store[j].tokenNumber == number.value && store[j].customerPhone == phone))
    ensures r.Err? ==> r.code == BadRequest || r.code == NotFound
    ensures r.Ok? ==>
      exists i :: && 0 <= i < |store| && store[i].id == r.value
                  && store[i].tokenNumber == number.value && store[i].customerPhone == phone
                  && (forall j :: 0 <= j < |store| && j != i && store[j].tokenNumber == number.value && store[j].customerPhone == phone ==>
                        Precedes(store, j, i))
  {
    if !Booking.PresentText(number) || !Booking.PresentText(phone) then Err(BadRequest)
    else
      match Latest(store, Matches(number.value, phone.value))
      case None => Err(NotFound)
      case Some(i) => Ok(store[i].id)
  }

  /** A customer who tracks the number they were just given, with the phone
      they booked with, gets their own token's id back. */
  lemma TrackFindsBooking(req: Booking.BookingRequest, store: seq<Token>, services: map<nat, Service>, today: nat, now: nat)
    requires Booking.Complete(req) && req.serviceId.value in services
    requires forall j :: 0 <= j < |store| ==> store[j].createdAt < now
    ensures var o := Booking.Book(req, store, services, today, now);
      && o.response.Ok?
      && Track(o.store, Some(o.response.value.tokenNumber), req.customerPhone) == Ok(o.response.value.id)
  {
    var o := Booking.Book(req, store, services, today, now);
    var t := o.response.value;
    var p := Matches(t.tokenNumber, req.customerPhone.value);
    assert o.store[|store|] == t;
    NewestRowIsLatest(o.store, p);
  }
}

=== FILE: views.dfy ===
/** The read-only handlers: the admin token list, the two display boards,
    the recent-tokens panel, today's counts, and `getActiveTokens` in
    lib/database.ts. Each is a `WHERE`, an `ORDER BY` and maybe a `LIMIT`
    over the tokens joined to their service; none returns a new table, so
    none writes. Rows are returned whole: the column lists and the joined
    service and counter names are not modelled. */
module Views {
  import opened Wrappers
  import opened Seqs
  import opened Store
  import Booking
  import Transitions

  /** `JOIN services s ON t.service_id = s.id`: a row whose service is gone
      is dropped. */
  predicate Joined(services: map<nat, Service>, t: Token) {
    t.serviceId in services
  }

  /** `ORDER BY created_at DESC`. */
  predicate NewerOrSame(a: Token, b: Token) {
    a.createdAt >= b.createdAt
  }

  /** `ORDER BY updated_at DESC`. */
  predicate UpdatedLaterOrSame(a: Token, b: Token) {
    a.updatedAt >= b.updatedAt
  }

  /** `position_in_queue` strictly before under `ASC`, where NULL sorts last. */
  predicate PositionBefore(x: Option<int>, y: Option<int>) {
    x.Some? && (y.None? || x.value < y.value)
  }

  /** `ORDER BY position_in_queue ASC, created_at ASC`. */
  predicate QueueOrder(a: Token, b: Token) {
    PositionBefore(a.positionInQueue, b.positionInQueue)
    || (a.positionInQueue == b.positionInQueue && a.createdAt <= b.createdAt)
  }

  /** `priority` strictly before under `DESC`, where NULL sorts first. */
  predicate PriorityBefore(x: Option<int>, y: Option<int>) {
    y.Some? && (x.None? || x.value > y.value)
  }

  /** `ORDER BY priority DESC, created_at ASC`. */
  predicate PriorityOrder(a: Token, b: Token) {
    PriorityBefore(a.priority, b.priority)
    || (a.priority == b.priority && a.createdAt <= b.createdAt)
  }

  lemma NewerOrSameIsOrder()
    ensures TotalPreorder(NewerOrSame)
  {
  }

  lemma UpdatedLaterOrSameIsOrder()
    ensures TotalPreorder(UpdatedLaterOrSame)
  {
  }

  lemma QueueOrderIsOrder()
    ensures TotalPreorder(QueueOrder)
  {
  }

  lemma PriorityOrderIsOrder()
    ensures TotalPreorder(PriorityOrder)
  {
  }

  /** The `status` query parameter selects every row when it is absent,
      empty or `all`. */
  predicate SelectsAll(status: Option<string>) {
    !Booking.PresentText(status) || status.value == "all"
  }

  /** `GET /api/admin/tokens?status=…`: the joined rows, all of them or
      those whose status is the given text, newest first. */
  function AdminList(store: seq<Token>, services: map<nat, Service>, status: Option<string>): (r: seq<Token>)
    ensures Sorted(r, NewerOrSame)
    ensures SelectsAll(status) ==>
      forall t :: multiset(r)[t] == if Joined(services, t) then multiset(store)[t] else 0
    ensures !SelectsAll(status) ==>
      forall t :: multiset(r)[t] == if Joined(services, t) && StatusName(t.status) == status.value then multiset(store)[t] else 0
  {
    var keep :=
      if SelectsAll(status) then (t: Token) => Joined(services, t)
      else (t: Token) => Joined(services, t) && StatusName(t.status) == status.value;
    NewerOrSameIsOrder();
    SortBy(Filter(store, keep), NewerOrSame)
  }

  /** Text that names no status selects nothing. */
  lemma AdminListUnknownStatus(store: seq<Token>, services: map<nat, Service>, status: string)
    requires status != "" && status != "all" && ParseStatus(status).None?
    ensures AdminList(store, services, Some(status)) == []
  {
    var r := AdminList(store, services, Some(status));
    if r != [] {
      assert r[0] in multiset(r);
      StatusNameRoundTrip(r[0].status);
    }
  }

  /** The left join on counters drops nothing: a joined row with no counter
      is listed under `all` and under its own status. */
  lemma AdminListKeepsRowsWithoutCounter(store: seq<Token>, services: map<nat, Service>, i: nat)
    requires i < |store| && Joined(services, store[i]) && store[i].counterId.None?
    ensures store[i] in AdminList(store, services, None)
    ensures store[i] in AdminList(store, services, Some(StatusName(store[i].status)))
  {
    assert store[i] in multiset(store);
    var all := AdminList(store, services, None);
    assert multiset(all)[store[i]] > 0;
    var own := StatusName(store[i].status);
    if own == "all" || own == "" {
    } else {
      var mine := AdminList(store, services, Some(own));
      assert multiset(mine)[store[i]] > 0;
    }
  }

  /** A booking adds exactly its own row to the admin list under `all`. */
  lemma AdminListAfterBooking(req: Booking.BookingRequest, store: seq<Token>, services: map<nat, Service>, today: nat, now: nat)
    requires Booking.Complete(req) && req.serviceId.value in services
    ensures var o := Booking.Book(req, store, services, today, now);
      multiset(AdminList(o.store, services, None)) == multiset(AdminList(store, services, None)) + multiset{o.response.value}
  {
    var o := Booking.Book(req, store, services, today, now);
    AdminListGrows(store, services, o.response.value);
  }

  lemma {:induction false} AdminListGrows(store: seq<Token>, services: map<nat, Service>, t: Token)
    requires Joined(services, t)
    ensures multiset(AdminList(store + [t], services, None)) == multiset(AdminList(store, services, None)) + multiset{t}
  {
    SelectionGrows(AdminList(store, services, None), AdminList(store + [t], services, None), store, t, (x: Token) => Joined(services, x));
  }

  /** A selection of the rows satisfying `p` gains exactly `t` when `t`,
      which satisfies `p`, is appended to the table. */
  lemma SelectionGrows(before: seq<Token>, after: seq<Token>, store: seq<Token>, t: Token, p: Token -> bool)
    requires p(t)
    requires forall x :: multiset(before)[x] == if p(x) then multiset(store)[x] else 0
    requires forall x :: multiset(after)[x] == if p(x) then multiset(store + [t])[x] else 0
    ensures multiset(after) == multiset(before) + multiset{t}
  {
    assert multiset(store + [t]) == multiset(store) + multiset{t};
  }

  /** The rows a display board shows: joined, with the given status, and in
      the given branch when one is asked for. A `branchId` parameter is
      missing when absent or empty; any other text, `0` included, filters. */
  predicate OnBoard(services: map<nat, Service>, branch: Option<nat>, status: Status, t: Token) {
    Joined(services, t) && t.status == status && (branch.None? || t.branchId == branch.value)
  }

  function OnBoardWith(services: map<nat, Service>, branch: Option<nat>, status: Status): Token -> bool {
    (t: Token) => OnBoard(services, branch, status, t)
  }

  function JoinedWith(services: map<nat, Service>): Token -> bool {
    (t: Token) => Joined(services, t)
  }

  /** The board's rows before `LIMIT`, in board order. */
  function WaitingList(store: seq<Token>, services: map<nat, Service>, branch: Option<nat>): (r: seq<Token>)
    ensures Sorted(r, QueueOrder)
    ensures forall t :: multiset(r)[t] == if OnBoard(services, branch, Waiting, t) then multiset(store)[t] else 0
  {
    QueueOrderIsOrder();
    SortBy(Filter(store, OnBoardWith(services, branch, Waiting)), QueueOrder)
  }

  /** `GET /api/display/waiting-queue`: at most 20 waiting rows, by position
      then creation time. No waiting row left out comes strictly before a
      row shown, and when fewer than 20 are shown every waiting row is. */
  function WaitingQueue(store: seq<Token>, services: map<nat, Service>, branch: Option<nat>): (r: seq<Token>)
    ensures |r| <= 20
    ensures Sorted(r, QueueOrder)
    ensures forall t :: t in r ==> t in store && OnBoard(services, branch, Waiting, t)
    ensures forall t :: multiset(r)[t] <= multiset(store)[t]
    ensures |r| < 20 ==> forall t :: multiset(r)[t] == if OnBoard(services, branch, Waiting, t) then multiset(store)[t] else 0
    ensures forall u, t :: u in r && t in store && OnBoard(services, branch, Waiting, t) && t !in r ==> QueueOrder(u, t)
  {
    QueueOrderIsOrder();
    TopKSelects(store, OnBoardWith(services, branch, Waiting), QueueOrder, 20);
    TopK(Filter(store, OnBoardWith(services, branch, Waiting)), QueueOrder, 20)
  }

  /** The board is the first 20 rows of the full waiting list. */
  lemma WaitingQueueIsPrefix(store: seq<Token>, services: map<nat, Service>, branch: Option<nat>)
    ensures var full := WaitingList(store, services, branch);
      WaitingQueue(store, services, branch) == full[..Min(20, |full|)]
  {
  }

  /** `GET /api/display/now-serving`: every joined in-progress row (of the
      branch, when given), latest update first. There is no limit. */
  function NowServing(store: seq<Token>, services: map<nat, Service>, branch: Option<nat>): (r: seq<Token>)
    ensures Sorted(r, UpdatedLaterOrSame)
    ensures forall t :: multiset(r)[t] == if OnBoard(services, branch, InProgress, t) then multiset(store)[t] else 0
  {
    UpdatedLaterOrSameIsOrder();
    SortBy(Filter(store, OnBoardWith(services, branch, InProgress)), UpdatedLaterOrSame)
  }

  /** A row `call-next` starts shows on the now-serving board of its branch
      when its service exists. */
  lemma CalledRowIsServed(store: seq<Token>, services: map<nat, Service>, now: nat)
    requires Transitions.NextToCall(store).Some?
    requires Joined(services, store[Transitions.NextToCall(store).value])
    ensures var o := Transitions.CallNext(store, now);
      o.response.value in NowServing(o.store, services, Some(o.response.value.branchId))
  {
    var o := Transitions.CallNext(store, now);
    var i := Transitions.NextToCall(store).value;
    assert o.store[i] == o.response.value;
    assert o.response.value in multiset(o.store);
    var board := NowServing(o.store, services, Some(o.response.value.branchId));
    assert multiset(board)[o.response.value] > 0;
  }

  /** Every joined row, newest first: the recent-tokens list before `LIMIT`. */
  function NewestFirst(store: seq<Token>, services: map<nat, Service>): (r: seq<Token>)
    ensures Sorted(r, NewerOrSame)
    ensures forall t :: multiset(r)[t] == if Joined(services, t) then multiset(store)[t] else 0
  {
    NewerOrSameIsOrder();
    SortBy(Filter(store, JoinedWith(services)), NewerOrSame)
  }

  /** `GET /api/admin/recent-tokens`: the 10 newest joined rows, newest first. */
  function RecentTokens(store: seq<Token>, services: map<nat, Service>): (r: seq<Token>)
    ensures |r| <= 10
    ensures Sorted(r, NewerOrSame)
    ensures forall t :: t in r ==> t in store && Joined(services, t)
    ensures forall t :: multiset(r)[t] <= multiset(store)[t]
    ensures forall u, t :: u in r && t in store && Joined(services, t) && t !in r ==> u.createdAt >= t.createdAt
    ensures |r| < 10 ==> forall t :: multiset(r)[t] == if Joined(services, t) then multiset(store)[t] else 0
  {
    NewerOrSameIsOrder();
    TopKSelects(store, JoinedWith(services), NewerOrSame, 10);
    var r := TopK(Filter(store, JoinedWith(services)), NewerOrSame, 10);
    forall u, t | u in r && t in store && Joined(services, t) && t !in r
      ensures u.createdAt >= t.createdAt
    {
      assert JoinedWith(services)(t);
      assert NewerOrSame(u, t);
    }
    r
  }

  /** The recent list is the first 10 rows of the full newest-first list. */
  lemma RecentTokensIsPrefix(store: seq<Token>, services: map<nat, Service>)
    ensures var full := NewestFirst(store, services);
      RecentTokens(store, services) == full[..Min(10, |full|)]
  {
  }

  /** A joined row of the branch that is waiting, called or serving. */
  predicate ActiveIn(services: map<nat, Service>, branchId: nat, t: Token) {
    Joined(services, t) && t.branchId == branchId && (t.status == Waiting || t.status == Called || t.status == Serving)
  }

  /** `getActiveTokens(branchId)` in lib/database.ts: the branch's joined
      rows that are waiting, called or serving; highest priority first, rows
      without a priority before all others, then oldest first. */
  function ActiveTokens(store: seq<Token>, services: map<nat, Service>, branchId: nat): (r: seq<Token>)
    ensures Sorted(r, PriorityOrder)
    ensures forall t :: multiset(r)[t] == if ActiveIn(services, branchId, t) then multiset(store)[t] else 0
  {
    PriorityOrderIsOrder();
    SortBy(Filter(store, (t: Token) => ActiveIn(services, branchId, t)), PriorityOrder)
  }

  /** No active row is listed after one of lower priority, and rows of equal
      priority are listed oldest first. */
  lemma ActiveTokensRanked(store: seq<Token>, services: map<nat, Service>, branchId: nat, i: nat, j: nat)
    requires var r := ActiveTokens(store, services, branchId); i < j < |r|
    ensures var r := ActiveTokens(store, services, branchId);
      && !PriorityBefore(r[j].priority, r[i].priority)
      && (r[i].priority == r[j].priority ==> r[i].createdAt <= r[j].createdAt)
  {
    var r := ActiveTokens(store, services, branchId);
    assert PriorityOrder(r[i], r[j]);
  }

  /** The token counts of `GET /api/admin/stats`, with the rounded average of
      the estimates of today's completed rows. */
  datatype Stats = Stats(total: nat, active: nat, completed: nat, averageWait: nat)

  function OnDay(today: nat): Token -> bool {
    (t: Token) => t.day == today
  }

  function ActiveOn(today: nat): Token -> bool {
    (t: Token) => t.day == today && (t.status == Waiting || t.status == InProgress)
  }

  function CompletedOn(today: nat): Token -> bool {
    (t: Token) => t.day == today && t.status == Completed
  }

  /** The non-NULL estimates `AVG` reads: those of today's completed rows. */
  function CompletedEstimates(store: seq<Token>, today: nat): (e: seq<nat>)
    ensures |e| <= |store|
  {
    if store == [] then []
    else
      var t := store[0];
      (if t.day == today && t.status == Completed && t.estimatedWait.Some? then [t.estimatedWait.value] else [])
        + CompletedEstimates(store[1..], today)
  }

  function Sum(s: seq<nat>): nat {
    if s == [] then 0 else s[0] + Sum(s[1..])
  }

  /** `Math.round(Number(avg) || 0)` of the mean of `n` values adding up to
      `sum`: NULL (no value) gives 0, a half rounds up. */
  function RoundedMean(sum: nat, n: nat): nat {
    if n == 0 then 0 else (2 * sum + n) / (2 * n)
  }

  /** `GET /api/admin/stats`: counts over the rows created today. */
  function TodayStats(store: seq<Token>, today: nat): (s: Stats)
    ensures s.total == Count(store, OnDay(today))
    ensures s.active == Count(store, ActiveOn(today))
    ensures s.completed == Count(store, CompletedOn(today))
    ensures s.active + s.completed <= s.total
  {
    var e := CompletedEstimates(store, today);
    CountDisjoint(store, ActiveOn(today), CompletedOn(today),
      (t: Token) => t.day == today && (t.status == Waiting || t.status == InProgress || t.status == Completed));
    CountMonotone(store,
      (t: Token) => t.day == today && (t.status == Waiting || t.status == InProgress || t.status == Completed),
      OnDay(today));
    Stats(Count(store, OnDay(today)), Count(store, ActiveOn(today)), Count(store, CompletedOn(today)), RoundedMean(Sum(e), |e|))
  }

  /** The average is 0 when no row completed today carries an estimate, and
      otherwise the mean rounded to the nearest minute, halves up. */
  lemma AverageWaitIsRoundedMean(store: seq<Token>, today: nat)
    ensures var e := CompletedEstimates(store, today);
      var avg := TodayStats(store, today).averageWait;
      && (e == [] ==> avg == 0)
      && (e != [] ==> 2 * |e| * avg <= 2 * Sum(e) + |e| < 2 * |e| * (avg + 1))
  {
    var e := CompletedEstimates(store, today);
    if e != [] {
      DivisionBounds(2 * Sum(e) + |e|, 2 * |e|);
    }
  }

  lemma DivisionBounds(a: nat, b: nat)
    requires b > 0
    ensures b * (a / b) <= a < b * (a / b + 1)
  {
  }

  /** A booking made today is one more row today and one more active row;
      the completed count is unchanged. */
  lemma StatsAfterBooking(req: Booking.BookingRequest, store: seq<Token>, services: map<nat, Service>, today: nat, now: nat)
    requires Booking.Complete(req) && req.serviceId.value in services
    ensures var o := Booking.Book(req, store, services, today, now);
      var before := TodayStats(store, today);
      var after := TodayStats(o.store, today);
      && after.total == before.total + 1
      && after.active == before.active + 1
      && after.completed == before.completed
  {
    var o := Booking.Book(req, store, services, today, now);
    var t := o.response.value;
    CountAppend(store, t, OnDay(today));
    CountAppend(store, t, ActiveOn(today));
    CountAppend(store, t, CompletedOn(today));
  }

  /** With unique ids, `call-next` moves a row from waiting to in progress:
      today's counts do not change. */
  lemma StatsAfterCallNext(store: seq<Token>, today: nat, now: nat)
    requires UniqueIds(store)
    ensures var o := Transitions.CallNext(store, now);
      TodayStats(o.store, today).total == TodayStats(store, today).total
      && TodayStats(o.store, today).active == TodayStats(store, today).active
      && TodayStats(o.store, today).completed == TodayStats(store, today).completed
  {
    var o := Transitions.CallNext(store, now);
    if o.response.Ok? {
      var i := Transitions.NextToCall(store).value;
      Transitions.CallNextMovesOneRow(store, now);
      CountPointUpdate(store, o.store, i, OnDay(today));
      CountPointUpdate(store, o.store, i, ActiveOn(today));
      CountPointUpdate(store, o.store, i, CompletedOn(today));
    }
  }
}

=== FILE: wrappers.dfy ===
/** Small failure-carrying datatypes shared by every module of the model. */
module Wrappers {

  /** A nullable value: `None` is SQL NULL, JavaScript `null`/`undefined`,
      or NaN where a number is expected. */
  datatype Option<+T> = None | Some(value: T)

  /** The outcome of one HTTP handler: a JSON body or an error status code. */
  datatype Response<+T> = Ok(value: T) | Err(code: nat)

  const BadRequest: nat := 400
  const NotFound: nat := 404

  function Min(a: int, b: int): int { if a <= b then a else b }
  function Max(a: int, b: int): int { if a <= b then b else a }
}
